=== FILE: README.md ===
# Titanic survival predictor: form lifecycle and feature preprocessing

The system is a small web application. A React form (`src/components/Form.jsx`)
collects one passenger's details and posts them to a FastAPI service
(`backend/app.py`). The service turns the passenger into the thirteen features
a trained random forest expects and answers with the predicted label and the
two class probabilities. This project models two parts of it in Dafny:

- **The prediction form.** The state is the form record (eight fields) and the
  three status cells `loading`, `error` and `prediction`.
  - `handleChange` replaces one field.
  - `handleSubmit` clears the status cells, builds the request body, and
    records the settled outcome: an OK body, a non-OK status or a thrown error.
    A `finally` then clears `loading`.
  - The JSX shows the button, the error block and the status line as a
    function of that state.
  - The component is a class (`Form.PredictionForm`) whose methods update its
    fields. Each method is proved against pure transition functions
    (`Started`, `Finished`, `Changed`) and a consistency invariant.
  - Event traces (`Run`) show that, under the button's `disabled={loading}`
    guard, at most one request is ever in flight.
  - The JavaScript conversions the request body applies are modelled:
    `parseInt`, `parseFloat` and `||` on field values.
- **The backend.**
  - `preprocess_passenger` becomes pure functions composed in the order the
    DataFrame columns are written:
    - `int()` of the class string, with the white space `int()` skips
      (ASCII TAB, LF, VT, FF, CR and space, and Unicode white space) and its
      underscore rule;
    - the `.get` defaults;
    - the leftmost regular-expression search for the title, and its
      normalisation and code;
    - family size and alone flag;
    - the right-closed `pd.cut` bands;
    - deck, port and sex codes;
    - the column order.
  - `/predict` and `/predict/batch` take the classifier as an abstract
    function that returns a label with two probabilities or raises.
    - The single prediction is a function.
    - The batch loop is a method, proved against a recursive specification
      of "append until the first exception".

Modelling choices that depart from the plain reading:

- The class is sent as the string the `<select>` holds, and the unselected
  value is `""`. `int("")` raises, so `/predict` answers 400 for it.
- The status line follows the code's `prediction.survived === 1`: it compares
  with the number 1. It does not use truthiness.
- The only guard against a second submission is the disabled button.
  `handleSubmit` itself has no re-entry check. The model therefore makes "not
  loading" a precondition of the submit event, rather than giving the handler
  a check it does not have.
- For an age outside (0, 100], `pd.cut` yields NaN rather than raising. The
  `except ValueError` fallback to band 2 is therefore never taken, and the
  model's `AgeBand` is `None` there.
- `pd.qcut` on the single-row frame always fails to form four bins, so
  `FareBand` is the fixed-bin `pd.cut` of the fallback branch.
- `IsAlone` is 1 exactly when `SibSp + Parch == 0`. The request model accepts
  negative counts, so "both counts are zero" only follows for non-negative
  counts (`AloneIffNoFamily`).

## Model

| member | source | states |
|---|---|---|
| Form.WithField | src/components/Form.jsx:33-36 | the named field takes the new value and every other field keeps its old one |
| Form.Changed | src/components/Form.jsx:33-36 | an edit changes only the named field of the form record, to the control's string; loading, error and prediction are untouched |
| Form.BuildRequest | src/components/Form.jsx:52-61 | the body's name is never falsy: it is the typed name when that is truthy, otherwise "Unknown"; class, gender, age and port are sent exactly as held; the counts are parseInt and the fare parseFloat of the held values (IntOf, FloatOf), NaN included |
| Form.IntOf | src/components/Form.jsx:56-57 | a control's string goes through parseInt; a number held by the form always converts, and a whole number converts exactly as parseInt of its numeral does |
| Form.FloatOf | src/components/Form.jsx:58 | a control's string goes through parseFloat; a number held by the form is sent as itself, which for a whole number is what parseFloat of its numeral gives |
| Form.InitialRequest | src/components/Form.jsx:17-26 | submitting the untouched form sends class "", gender "", age 30, counts 0, fare 7.25, port "" and name "Unknown" |
| Form.TypedCountIsSent | src/components/Form.jsx:56-57 | a sibling/parent count typed as the decimal numeral of n, optionally followed by non-digits, is sent as the integer n, except an "x" or "X" after a lone "0", which parseInt reads as hexadecimal |
| Form.UnparsedFieldsSendNaN | src/components/Form.jsx:56-58 | nothing checks for NaN: a cleared count or one typed as ".5" is sent as NaN, and so is a cleared fare |
| Form.TypedFareIsSent | src/components/Form.jsx:58 | a fare typed as "a.ds" is sent as the exact number a + ds / 10^k, where k is the number of digits in ds |
| Form.Started | src/components/Form.jsx:41-43 | accepting a submit sets loading and clears error and prediction, leaving the form record as it was |
| Form.Finished | src/components/Form.jsx:64-76 | after the request settles loading is false; an OK response stores its body as the prediction, a non-OK one sets error "Prediction failed", a thrown error sets its message |
| Form.SubmitLifecycle | src/components/Form.jsx:39-77 | one accepted submit ends with loading false, the outcome's cell set, the other cell still cleared, and the form record unchanged |
| Form.Survived | src/components/Form.jsx:272 | `survived === 1` holds exactly when the prediction is an object whose survived member is the number 1 |
| Form.Render | src/components/Form.jsx:256-290 | the button is disabled and reads "Predicting..." exactly while loading, "Predict" otherwise; the error block shows exactly when the error is a non-empty string; the status line shows exactly when the prediction is truthy and reads "Would Survive" exactly when its survived member is 1 |
| Form.AtMostOneBlock | src/components/Form.jsx:256-283 | in a consistent state the error block and the result block are never both shown |
| Form.ViewWhileSubmitting | src/components/Form.jsx:285-290 | once a submit is accepted the view is the disabled "Predicting..." button with neither block |
| Form.ViewAfterSubmit | src/components/Form.jsx:64-76 | after a submit settles the button is enabled and reads "Predict"; only the outcome's block can show |
| Form.Step | src/components/Form.jsx:287 | an event cannot happen exactly when it is a submit while loading (the button is disabled) or a settlement with no request in flight; a submit or settlement leaves the form record alone and sets loading to true or false |
| Form.Run | src/components/Form.jsx:33-36 | a trace of edits alone can always happen and leaves loading, error and prediction as they were |
| Form.InFlight | src/components/Form.jsx:287 | the number of requests opened and not yet settled: submits count 1, settlements -1, edits 0; RunInFlight ties it to loading |
| Form.StepConsistent | src/components/Form.jsx:33-77 | every possible edit, submit or settlement preserves the consistency of the status cells |
| Form.RunConsistent | src/components/Form.jsx:33-77 | every state reachable by events from a consistent state is consistent |
| Form.RunInFlight | src/components/Form.jsx:285-290 | along any possible trace, loading counts submits minus settlements |
| Form.SingleRequestInFlight | src/components/Form.jsx:285-290 | from the mounted component, at most one request is in flight at any point; loading is true exactly when one is, and the status cells stay consistent |
| Form.PredictionForm.constructor | src/components/Form.jsx:17-30 | mounting gives the initial record (age 30, fare 7.25, empty name, class, gender and port, zero counts), no prediction, not loading, no error |
| Form.PredictionForm.HandleChange | src/components/Form.jsx:33-36 | the component's state becomes Changed of the old state, and stays consistent |
| Form.PredictionForm.StartSubmit | src/components/Form.jsx:39-62 | callable only while not loading; the state becomes Started of the old state; returns the body built from the form record |
| Form.PredictionForm.FinishSubmit | src/components/Form.jsx:64-76 | the state becomes Finished of the old state under the outcome; not loading, and error and prediction are not both set |
| Form.PredictionForm.HandleSubmit | src/components/Form.jsx:39-77 | the whole handler: the state becomes Finished(Started(old state)) and the body sent is built from the record at submit time |
| JsonValues.Truthy | src/components/Form.jsx:257-264 | the falsy values are exactly null, false, 0 and ""; every other value, objects and arrays included, is truthy (the `||` at line 60 and the `&&` guards of the error and result blocks) |
| JsonValues.Member | src/components/Form.jsx:272 | a member is found exactly when the value is an object holding that key |
| JsNumbers.TrimStart | src/components/Form.jsx:56-58 | parseInt and parseFloat drop exactly the leading JavaScript white space, up to the first other character |
| JsNumbers.ParseInt | src/components/Form.jsx:56-57 | parseInt gives a number only when the text after white space and sign starts with a decimal digit, and always does then unless it starts with "0x" or "0X"; a negative result needs a leading '-' |
| JsNumbers.ParseFloat | src/components/Form.jsx:58 | parseFloat is finite whenever the text after white space and sign starts with a digit, and NaN only when it starts with neither a digit nor a point followed by a digit; a negative finite result needs a leading '-' |
| JsNumbers.Truncate | src/components/Form.jsx:56-57 | parseInt of a number keeps its integer part, rounding toward zero |
| JsNumbers.ParseIntNumeral | src/components/Form.jsx:56-57 | parseInt reads the decimal numeral of any integer back as that integer, whatever non-digit text follows, except an "x" after a lone "0" |
| JsNumbers.ParseFloatNumeral | src/components/Form.jsx:58 | parseFloat reads the decimal numeral of any integer back as that number |
| JsNumbers.ParseFloatFixedPoint | src/components/Form.jsx:58 | parseFloat reads "a.ds" as a + ds / 10^k, where k is the number of digits in ds |
| PyNumbers.ParsePyInt | backend/app.py:100 | int() succeeds exactly when the text without the white space int() skips, after its sign, is decimal digits with single underscores between digits; a negative result needs a leading '-' |
| PyNumbers.ParsePyIntNumeral | backend/app.py:100 | int() reads the decimal numeral of any integer back as that integer (the model has no digit-count limit; see Left out) |
| PyNumbers.ParsePyIntIgnoresPadding | backend/app.py:100 | int() ignores the white space it skips (ASCII TAB to CR and space, Unicode white space; not U+001C-U+001F) around a string that has none at its ends |
| PyNumbers.ParsePyIntEmpty | backend/app.py:100 | int("") raises |
| Preprocess.AsDict | backend/app.py:206 | every key of `passenger.dict()` (also taken at line 240) is present, so `.get` returns the validated value whatever its default |
| Preprocess.QuotedLiteral | backend/app.py:100 | the literal in int()'s error is the quoted string cut after 200 characters: a prefix of it, of length the smaller of 200 and the string's length plus two |
| Preprocess.ErrorMessage | backend/app.py:100-106 | `str(e)`: int()'s message starts "invalid literal for int() with base 10: " followed by at most 200 characters, and is exactly that prefix with the quoted literal for a literal of up to 198 characters; float(None)'s message is the fixed text |
| Preprocess.PclassOf | backend/app.py:100 | a missing class defaults to 3; a present class string converts exactly when int() accepts it, else raises with that literal |
| Preprocess.FareOf | backend/app.py:106 | the fare conversion raises exactly when the fare is present and None |
| Preprocess.UpperAscii | backend/app.py:108 | the port is upper-cased character by character, keeping its length |
| Preprocess.Convert | backend/app.py:99-110 | the conversion succeeds exactly when both class and fare convert; a bad class is reported before a None fare |
| Preprocess.TitleSearch | backend/app.py:116 | a title found is a non-empty run of ASCII letters, at least two characters shorter than the name (the space and the dot); TitleSearchFindsLeftmost relates it to the leftmost match |
| Preprocess.TitleSearchFindsLeftmost | backend/app.py:116 | the title search returns the group of a match of " ([A-Za-z]+)\." that starts leftmost; it returns None only when there is no match anywhere |
| Preprocess.TitleSearchSpec | backend/app.py:116 | the search yields t exactly when the leftmost match's group is t |
| Preprocess.NoSpaceNoTitle | backend/app.py:116 | a name with no space, such as "Unknown", has no title |
| Preprocess.TitleOfTypicalName | backend/app.py:116 | "Braund, Mr. Owen Harris" has the title "Mr" |
| Preprocess.ExtractTitle | backend/app.py:116-118 | the title is the name's honorific when it has one; otherwise the sex-based title (Mr for male, Miss for female, none otherwise) |
| Preprocess.NormalizeTitle | backend/app.py:120-124 | the eleven rare titles become "Rare", Mlle and Ms become "Miss", Mme becomes "Mrs", every other title and NaN are kept |
| Preprocess.TitleCode | backend/app.py:160-161 | Mr, Miss, Mrs and Master get codes 0-3 and any other title gets 4 |
| Preprocess.TitleCodeCases | backend/app.py:120-161 | the final Title code of every extracted title: Mr 0; Miss, Mlle and Ms 1; Mrs and Mme 2; Master 3; anything else, rare or unknown, 4 |
| Preprocess.TitleWithoutHonorific | backend/app.py:117-118 | a passenger with no honorific in the name gets code 0 if male, 1 if female, 4 otherwise |
| Preprocess.Cut | backend/app.py:132 | a value gets a label exactly when it lies in (first edge, last edge]; the label k is the bin with edges[k] < x <= edges[k+1] |
| Preprocess.CutIsTheBin | backend/app.py:132 | a value in bin k always gets label k |
| Preprocess.CutMonotone | backend/app.py:132 | a larger value never gets a lower band |
| Preprocess.AgeBand | backend/app.py:131-135 | the age gets a band exactly when 0 < age <= 100, and the band's edges enclose the age |
| Preprocess.AgeBands | backend/app.py:132 | the age bands (0,12], (12,18], (18,35], (35,60] and (60,100] are labelled 0 to 4 |
| Preprocess.FareBand | backend/app.py:138-142 | the fare gets a band exactly when 0 < fare <= 513, and the band's edges enclose the fare |
| Preprocess.FareBands | backend/app.py:142 | the fare bands (0,7.91], (7.91,14.454], (14.454,31] and (31,513] are labelled 0 to 3 |
| Preprocess.SexCode | backend/app.py:153-154 | "male" gives 1, "female" gives 0, and any other value gives NaN |
| Preprocess.EmbarkedCode | backend/app.py:156-157 | port C gives 1, Q gives 2, and S or anything else gives 0 |
| Preprocess.EmbarkedIgnoresCase | backend/app.py:108 | after upper-casing, only "c"/"C" give code 1 and only "q"/"Q" give 2 |
| Preprocess.Deck | backend/app.py:145-146 | the deck cell is 'Unknown' exactly when the cabin is missing or empty, and otherwise the cabin's first character |
| Preprocess.DeckCode | backend/app.py:145-165 | the deck code is below 8 exactly when the cabin is present, non-empty and starts with one of A-G or T, and it is then that letter's index in "ABCDEFGT" |
| Preprocess.Encode | backend/app.py:113-170 | every encoded row is well formed: family size is SibSp + Parch + 1 (exact, without int64 wrap-around; see Left out), IsAlone is 1 exactly when the family size is 1, the codes lie in their ranges, and the bands lie within their edges |
| Preprocess.PreprocessPassenger | backend/app.py:93-172 | preprocessing succeeds exactly when class and fare convert, and the row it yields is well formed |
| Preprocess.AloneIffNoFamily | backend/app.py:127-128 | with non-negative counts, IsAlone is 1 exactly when both counts are zero |
| Preprocess.SubmittedValuesAreUsed | backend/app.py:99-110 | for a validated request every key is present, so no default is used: the class, sex, age, counts, fare, port, title and deck come from the submitted values; a bad class or a None fare raises |
| Preprocess.EmptyLiteralMessage | backend/app.py:100 | int('') raises with the message "invalid literal for int() with base 10: ''" |
| Preprocess.UnselectedClassRaises | backend/app.py:100 | the class "" raises the int() error for the literal '' |
| Preprocess.NumeralClassIsRead | backend/app.py:100 | a class sent as the numeral of n becomes Pclass n (within CPython's digit-count limit; see Left out) |
| Preprocess.AllDefaults | backend/app.py:99-110 | a dict with none of the keys takes every default: Pclass 3, male, age 30, no family, fare 7.25, port S, title Mr, age band 2, fare band 0, deck 8 |
| Preprocess.Columns | backend/app.py:168-172 | the row holds thirteen cells, and each is the named feature in the trained order; these cells are what the classifier receives |
| Api.PredictOne | backend/app.py:204-223 | one passenger's prediction succeeds exactly when preprocessing succeeds and the classifier, applied to the thirteen cells of the row, returns; it carries the classifier's label and probabilities and echoes name, class, gender and age; a failure carries the message of the exception raised, by preprocessing or by the classifier |
| Api.PredictSurvival | backend/app.py:196-226 | with no model loaded the answer is 500 "Model not loaded"; otherwise an OK answer exactly when the prediction succeeds, else 400 "Prediction error: " followed by the exception's message; an OK answer's body is exactly the prediction, whose passenger_info echoes the request |
| Api.UnselectedClassIsBadRequest | backend/app.py:225-226 | the class "" is answered with 400 "Prediction error: invalid literal for int() with base 10: ''" whatever the classifier |
| Api.MapUntilFailure | backend/app.py:239-256 | a successful loop holds exactly one result per item; MapInOrder and MapReportsFirstFailure give the order and the first failure |
| Api.BatchPredictions | backend/app.py:239-256 | a successful loop holds exactly one prediction per passenger; BatchResponseMeaning ties each to the /predict step for that passenger |
| Api.FailurePersists | backend/app.py:236-264 | once the loop has failed on a prefix, the later passengers do not change the result |
| Api.MapInOrder | backend/app.py:237-261 | a successful loop yields one result per item, in order, and succeeds exactly when every item does |
| Api.MapReportsFirstFailure | backend/app.py:239-264 | a failed loop reports the exception of the first item that fails |
| Api.PredictBatch | backend/app.py:228-264 | with no model loaded the answer is 500 "Model not loaded"; otherwise the list the loop appends, with total_passengers its length, or 400 "Batch prediction error: " followed by the first exception's message |
| Api.BatchResponseMeaning | backend/app.py:237-264 | a batch succeeds exactly when every passenger's /predict step does; it then holds one prediction per passenger, in input order; a failed batch reports the first failing passenger's exception |
| Api.BatchOfOne | backend/app.py:196-264 | a batch of one passenger succeeds exactly when /predict does, with the same prediction |

## Left out

- Preprocess.Encode: FamilySize is the exact sum SibSp + Parch + 1. In the source it is an int64 pandas column, and the request model accepts any integer count. So a sum beyond the int64 range wraps: sibsp = parch = -9223372036854775808 gives FamilySize 1 and IsAlone 1. A count outside the int64 range changes the column's dtype. "FamilySize = SibSp + Parch + 1" in WellFormedRow, PreprocessPassenger and AloneIffNoFamily holds of the source only while the sum stays within int64.
- Preprocess.PreprocessPassenger: its well-formed row has FamilySize = SibSp + Parch + 1 exactly; the source's int64 column wraps, as the Preprocess.Encode line above says.
- PyNumbers.ParsePyInt: CPython's int() of a string raises ValueError for more than 4300 digits by default. The limit applies from Python 3.11 and in the 3.7-3.10 security releases, and it is configurable. The model accepts numerals of any length.
- PyNumbers.ParsePyIntNumeral: holds of the source only for numerals within CPython's digit-count limit.
- Preprocess.NumeralClassIsRead: holds of the source only for a class numeral within CPython's digit-count limit; a longer one raises.
- IEEE-754 doubles: numbers are exact reals, so rounding, overflow and the precision limit of parseInt and parseFloat are not modelled.
- JsNumbers.Truncate: parseInt of a number held by the form uses the number's integer part. The exponent notation that String() uses for very large or very small numbers is not modelled; the form only ever holds 0, 30 and 7.25 as numbers.
- Unicode digits and Unicode case mapping: int() and upper() are modelled for ASCII text only.
- The repr() quoting and escaping of a class literal in the int() error message: the message is modelled with plain single quotes around the literal. The `%.200R` cut after 200 characters is modelled (QuotedLiteral), but on the unescaped form, so for a literal that repr() would escape, the cut falls at a different place.
- Preprocess.ErrorMessage: the texts are CPython 3.10 and later. Python 3.9 and earlier say "float() argument must be a string or a number, not 'NoneType'" for a None fare.
- The percentage lines of the result block (`toFixed(1)`) are not modelled: floating-point formatting.
- React shows nothing for a falsy prediction, and renders a bare 0 for the number 0. Only whether the result block shows is modelled.
- The browser's constraint validation (`required`, `min`, `max`, `step`) is not assumed: any string may reach the request body.
- Re-rendering, unmounting while a request is pending, and any concurrency beyond the disabled button are not modelled.
- fetch, the environment variable naming the endpoint, and console logging become the abstract Outcome of a request.
- Pydantic validation, FastAPI routing, CORS and JSON serialisation are left out: endpoints take an already validated PassengerInput.
- The `/`, `/health` and `/model/info` endpoints and loading the model from disk are left out: they are plumbing. The loaded model is an `Option` of an abstract classifier.
- The classifier's `predict` and `predict_proba` are an abstract function, because they are an opaque trained model.
- The `pd.qcut` attempt for the fare band is not modelled: on a one-row frame it always falls back to the fixed bins, which are modelled.
- The fill of a missing port (backend/app.py:149-150) is not modelled: `.upper()` of a string never yields NaN.
- The `Ticket` column is not modelled: it is written but never selected.
- src/components/FormSection.jsx, Header.jsx, Footer.jsx, InfoSeection.jsx and src/App.jsx are not part of this model: they are static layout.

=== FILE: api.dfy ===
/**
 * The /predict and /predict/batch endpoints of backend/app.py with the
 * trained classifier abstracted to a function from the row's cells to its
 * prediction (label and class probabilities) or the exception it raises.
 */
module Api {
  import opened Wrappers
  import opened Preprocess

  /** `model.predict(X)[0]` with `model.predict_proba(X)[0]`, or the exception either raises. */
  datatype ModelOutput =
    | Scored(predicted: int, deathProbability: real, survivalProbability: real)
    | Raised(message: string)

  /** The trained model, applied to the thirteen cells of `X`. */
  type Classifier = seq<Cell> -> ModelOutput

  /** `passenger_info`: the submitted name, class, gender and age. */
  datatype PassengerInfo = PassengerInfo(name: Option<string>, pclass: string, gender: string, age: real)

  datatype PredictionResponse = PredictionResponse(
    survived: int, survivalProbability: real, deathProbability: real, passengerInfo: PassengerInfo)

  datatype BatchPredictionResponse = BatchPredictionResponse(
    predictions: seq<PredictionResponse>, totalPassengers: int)

  /** What an endpoint answers: a body, or an HTTPException's status and detail. */
  datatype Response<T> = Ok(body: T) | HttpError(status: int, detail: string)

  const ModelNotLoaded: string := "Model not loaded"

  function Echo(p: PassengerInput): PassengerInfo {
    PassengerInfo(p.name, p.pclass, p.gender, p.age)
  }

  /**
   * One passenger through the try block: preprocess, classify, build the
   * response. A failure carries `str(e)` of the exception raised.
   */
  function PredictOne(classify: Classifier, p: PassengerInput): (r: Result<PredictionResponse, string>)
    ensures PreprocessPassenger(AsDict(p)).Failure? ==>
              r == Failure(ErrorMessage(PreprocessPassenger(AsDict(p)).error))
    ensures r.Success? <==>
              PreprocessPassenger(AsDict(p)).Success? && classify(Columns(PreprocessPassenger(AsDict(p)).value)).Scored?
    ensures PreprocessPassenger(AsDict(p)).Success? && classify(Columns(PreprocessPassenger(AsDict(p)).value)).Raised? ==>
              r == Failure(classify(Columns(PreprocessPassenger(AsDict(p)).value)).message)
    ensures r.Success? ==>
              var out := classify(Columns(PreprocessPassenger(AsDict(p)).value));
              && r.value.survived == out.predicted
              && r.value.survivalProbability == out.survivalProbability
              && r.value.deathProbability == out.deathProbability
              && r.value.passengerInfo == Echo(p)
  {
    match PreprocessPassenger(AsDict(p))
    case Failure(e) => Failure(ErrorMessage(e))
    case Success(row) =>
      match classify(Columns(row))
      case Raised(m) => Failure(m)
      case Scored(predicted, p0, p1) => Success(PredictionResponse(predicted, p1, p0, Echo(p)))
  }

  /** predict_survival: 500 without a model, 400 "Prediction error: ..." when anything in the try block raises. */
  function PredictSurvival(model: Option<Classifier>, p: PassengerInput): (r: Response<PredictionResponse>)
    ensures model.None? ==> r == HttpError(500, ModelNotLoaded)
    ensures model.Some? ==> (r.Ok? <==> PredictOne(model.value, p).Success?)
    ensures model.Some? && r.HttpError? ==>
              r.status == 400 && r.detail == "Prediction error: " + PredictOne(model.value, p).error
    ensures r.Ok? ==> r.body.passengerInfo == Echo(p)
    ensures r.Ok? ==> model.Some? && r.body == PredictOne(model.value, p).value
  {
    match model
    case None => HttpError(500, ModelNotLoaded)
    case Some(classify) =>
      match PredictOne(classify, p)
      case Failure(m) => HttpError(400, "Prediction error: " + m)
      case Success(response) => Ok(response)
  }

  /** The class the form starts with, "", is answered with 400 whatever the classifier. */
  lemma UnselectedClassIsBadRequest(classify: Classifier, p: PassengerInput)
    requires p.pclass == ""
    ensures PredictSurvival(Some(classify), p)
         == HttpError(400, "Prediction error: " + "invalid literal for int() with base 10: ''")
  {
    UnselectedClassRaises(p);
    EmptyLiteralMessage();
    var m := ErrorMessage(IntLiteral(""));
    assert PredictOne(classify, p) == Failure(m);
    assert PredictSurvival(Some(classify), p) == HttpError(400, "Prediction error: " + m);
  }

  /**
   * The for loop's effect on a list it appends to: `one` applied to each
   * item in order, the first exception ending the loop.
   */
  function MapUntilFailure<A, B>(one: A -> Result<B, string>, xs: seq<A>): (r: Result<seq<B>, string>)
    ensures r.Success? ==> |r.value| == |xs|
    decreases |xs|
  {
    if xs == [] then Success([])
    else
      match MapUntilFailure(one, xs[..|xs| - 1])
      case Failure(m) => Failure(m)
      case Success(ys) =>
        match one(xs[|xs| - 1])
        case Failure(m) => Failure(m)
        case Success(y) => Success(ys + [y])
  }

  /** Once the loop has failed on a prefix, the later items change nothing. */
  lemma {:induction false} FailurePersists<A, B>(one: A -> Result<B, string>, xs: seq<A>, i: nat)
    requires i <= |xs|
    requires MapUntilFailure(one, xs[..i]).Failure?
    ensures MapUntilFailure(one, xs) == MapUntilFailure(one, xs[..i])
    decreases |xs|
  {
    if i < |xs| {
      var init := xs[..|xs| - 1];
      assert init[..i] == xs[..i];
      FailurePersists(one, init, i);
    } else {
      assert xs[..i] == xs;
    }
  }

  /** A successful run holds one result per item, in order, and succeeds exactly when every item does. */
  lemma {:induction false} MapInOrder<A, B>(one: A -> Result<B, string>, xs: seq<A>)
    ensures MapUntilFailure(one, xs).Success? <==> forall k :: 0 <= k < |xs| ==> one(xs[k]).Success?
    ensures MapUntilFailure(one, xs).Success? ==>
              && |MapUntilFailure(one, xs).value| == |xs|
              && forall k :: 0 <= k < |xs| ==> MapUntilFailure(one, xs).value[k] == one(xs[k]).value
    decreases |xs|
  {
    if xs != [] {
      var init := xs[..|xs| - 1];
      MapInOrder(one, init);
      assert forall k :: 0 <= k < |init| ==> init[k] == xs[k];
    }
  }

  /** A failed run reports the exception of the first item that fails. */
  lemma {:induction false} MapReportsFirstFailure<A, B>(one: A -> Result<B, string>, xs: seq<A>)
    requires MapUntilFailure(one, xs).Failure?
    ensures exists k :: && 0 <= k < |xs|
                        && (forall j :: 0 <= j < k ==> one(xs[j]).Success?)
                        && one(xs[k]) == Failure(MapUntilFailure(one, xs).error)
    decreases |xs|
  {
    var init := xs[..|xs| - 1];
    assert forall j :: 0 <= j < |init| ==> init[j] == xs[j];
    if MapUntilFailure(one, init).Failure? {
      MapReportsFirstFailure(one, init);
      var k :| && 0 <= k < |init|
               && (forall j :: 0 <= j < k ==> one(init[j]).Success?)
               && one(init[k]) == Failure(MapUntilFailure(one, init).error);
      assert one(xs[k]) == Failure(MapUntilFailure(one, xs).error);
    } else {
      MapInOrder(one, init);
      assert one(xs[|xs| - 1]) == Failure(MapUntilFailure(one, xs).error);
    }
  }

  /** The predictions list after the loop over `ps`, or the message of the first exception. */
  function BatchPredictions(classify: Classifier, ps: seq<PassengerInput>): (r: Result<seq<PredictionResponse>, string>)
    ensures r.Success? ==> |r.value| == |ps|
  {
    MapUntilFailure(p => PredictOne(classify, p), ps)
  }

  /** A batch of one passenger succeeds exactly when /predict does, with the same prediction. */
  lemma BatchOfOne(classify: Classifier, p: PassengerInput)
    ensures BatchPredictions(classify, [p]).Success? <==> PredictSurvival(Some(classify), p).Ok?
    ensures BatchPredictions(classify, [p]).Success? ==>
              BatchPredictions(classify, [p]).value == [PredictSurvival(Some(classify), p).body]
  {
    var one := q => PredictOne(classify, q);
    assert [p][..0] == [] && [p][0] == p;
    assert MapUntilFailure(one, [p][..0]) == Success([]);
    assert one(p) == PredictOne(classify, p);
    if PredictOne(classify, p).Success? {
      assert MapUntilFailure(one, [p]) == Success([] + [PredictOne(classify, p).value]);
    }
  }

  /**
   * predict_batch: 500 without a model; otherwise the loop appends one
   * response per passenger, and the first exception turns the whole batch
   * into 400 "Batch prediction error: ...".
   */
  method PredictBatch(model: Option<Classifier>, passengers: seq<PassengerInput>)
      returns (r: Response<BatchPredictionResponse>)
    ensures model.None? ==> r == HttpError(500, ModelNotLoaded)
    ensures model.Some? ==>
              match BatchPredictions(model.value, passengers)
              case Success(rs) => r == Ok(BatchPredictionResponse(rs, |rs|))
              case Failure(m) => r == HttpError(400, "Batch prediction error: " + m)
  {
    if model.None? {
      return HttpError(500, ModelNotLoaded);
    }
    var classify := model.value;
    var predictions: seq<PredictionResponse> := [];
    var i := 0;
    while i < |passengers|
      invariant 0 <= i <= |passengers|
      invariant BatchPredictions(classify, passengers[..i]) == Success(predictions)
    {
      var p := passengers[i];
      assert passengers[..i + 1][..i] == passengers[..i];
      var x := PreprocessPassenger(AsDict(p));
      if x.Failure? {
        FailurePersists(p' => PredictOne(classify, p'), passengers, i + 1);
        return HttpError(400, "Batch prediction error: " + ErrorMessage(x.error));
      }
      var out := classify(Columns(x.value));
      if out.Raised? {
        FailurePersists(p' => PredictOne(classify, p'), passengers, i + 1);
        return HttpError(400, "Batch prediction error: " + out.message);
      }
      predictions := predictions + [PredictionResponse(out.predicted, out.survivalProbability, out.deathProbability, Echo(p))];
      i := i + 1;
    }
    assert passengers[..i] == passengers;
    return Ok(BatchPredictionResponse(predictions, |predictions|));
  }

  /** What PredictBatch answers, in terms of /predict's own step: count, order, all-or-nothing and the first failure. */
  lemma BatchResponseMeaning(classify: Classifier, ps: seq<PassengerInput>)
    ensures BatchPredictions(classify, ps).Success? <==>
              forall k :: 0 <= k < |ps| ==> PredictOne(classify, ps[k]).Success?
    ensures BatchPredictions(classify, ps).Success? ==>
              var rs := BatchPredictions(classify, ps).value;
              && |rs| == |ps|
              && forall k :: 0 <= k < |ps| ==> PredictOne(classify, ps[k]) == Success(rs[k])
    ensures BatchPredictions(classify, ps).Failure? ==>
              exists k :: && 0 <= k < |ps|
                          && (forall j :: 0 <= j < k ==> PredictOne(classify, ps[j]).Success?)
                          && PredictOne(classify, ps[k]) == Failure(BatchPredictions(classify, ps).error)
  {
    var one := p => PredictOne(classify, p);
    MapInOrder(one, ps);
    if MapUntilFailure(one, ps).Failure? {
      MapReportsFirstFailure(one, ps);
    }
  }
}

=== FILE: digits.dfy ===
/**
 * ASCII digit strings: reading them in a radix, and writing integers as
 * the shortest decimal numeral. Shared by the JavaScript and Python
 * number parsers.
 */
module Digits {

  /** The value of `c` as a digit in any radix up to 36, or 36 when it is none. */
  function DigitOf(c: char): (d: nat)
    ensures d <= 36
  {
    if '0' <= c <= '9' then c as int - '0' as int
    else if 'a' <= c <= 'z' then c as int - 'a' as int + 10
    else if 'A' <= c <= 'Z' then c as int - 'A' as int + 10
    else 36
  }

  predicate IsRadixDigit(c: char, radix: nat) {
    DigitOf(c) < radix
  }

  predicate IsDigit(c: char) {
    '0' <= c <= '9'
  }

  predicate AllRadixDigits(s: string, radix: nat) {
    forall k :: 0 <= k < |s| ==> IsRadixDigit(s[k], radix)
  }

  predicate AllDigits(s: string) {
    forall k :: 0 <= k < |s| ==> IsDigit(s[k])
  }

  /** The value of a digit string in `radix`, most significant digit first. */
  function ValueIn(s: string, radix: nat): nat
    requires AllRadixDigits(s, radix)
  {
    if s == [] then 0
    else ValueIn(s[..|s| - 1], radix) * radix + DigitOf(s[|s| - 1])
  }

  /** The length of the longest prefix of `s` made of digits of `radix`. */
  function PrefixLength(s: string, radix: nat): (n: nat)
    ensures n <= |s|
    ensures AllRadixDigits(s[..n], radix)
    ensures n < |s| ==> !IsRadixDigit(s[n], radix)
  {
    if s == [] || !IsRadixDigit(s[0], radix) then 0
    else 1 + PrefixLength(s[1..], radix)
  }

  /** When the first `m` characters are digits and the next one is not, the digit prefix is exactly `m` long. */
  lemma {:induction false} PrefixLengthIs(s: string, radix: nat, m: nat)
    requires m <= |s| && AllRadixDigits(s[..m], radix)
    requires m < |s| ==> !IsRadixDigit(s[m], radix)
    ensures PrefixLength(s, radix) == m
  {
    if m > 0 {
      assert s[..m][0] == s[0];
      assert s[1..][..m - 1] == s[..m][1..];
      PrefixLengthIs(s[1..], radix, m - 1);
    }
  }

  function DigitChar(d: nat): (c: char)
    requires d < 10
    ensures IsDigit(c) && DigitOf(c) == d
  {
    (d + '0' as int) as char
  }

  /** The shortest decimal numeral of `n`: no leading zero unless `n` is 0. */
  function Numeral(n: nat): (s: string)
    ensures 0 < |s| && AllDigits(s)
    ensures s[0] == '0' ==> n == 0
  {
    if n < 10 then [DigitChar(n)] else Numeral(n / 10) + [DigitChar(n % 10)]
  }

  /** The decimal numeral of `i`, with a leading '-' when negative (JavaScript's and Python's str of an integer). */
  function IntString(i: int): string {
    if i < 0 then "-" + Numeral(-i) else Numeral(i)
  }

  /** Reading a numeral back gives the number it was written from. */
  lemma {:induction false} NumeralValue(n: nat)
    ensures AllRadixDigits(Numeral(n), 10)
    ensures ValueIn(Numeral(n), 10) == n
  {
    var s := Numeral(n);
    if n >= 10 {
      NumeralValue(n / 10);
      assert s[..|s| - 1] == Numeral(n / 10);
    }
  }

  /** A leading '-' makes a numeral negative; a leading '+' or '-' is not part of the digits. */
  predicate IsNegative(t: string) {
    |t| > 0 && t[0] == '-'
  }

  function Unsigned(t: string): (u: string)
    ensures |u| <= |t|
  {
    if |t| > 0 && (t[0] == '-' || t[0] == '+') then t[1..] else t
  }

  /** A signed numeral followed by other text: where the sign is, and what remains after it. */
  lemma SignedNumeral(n: int, rest: string)
    ensures var s := IntString(n) + rest;
            && s != [] && (s[0] == '-' || IsDigit(s[0]))
            && Unsigned(s) == Numeral(if n < 0 then -n else n) + rest
            && (IsNegative(s) <==> n < 0)
  {
    var s := IntString(n) + rest;
    if n < 0 {
      assert s == "-" + (Numeral(-n) + rest);
      assert s[1..] == Numeral(-n) + rest;
    } else {
      assert s[0] == Numeral(n)[0];
    }
  }

  /** A signed numeral on its own: the sign, the digits after it, and a digit at its end. */
  lemma SignedNumeralAlone(n: int)
    ensures var s := IntString(n);
            && s != [] && (s[0] == '-' || IsDigit(s[0])) && IsDigit(s[|s| - 1])
            && Unsigned(s) == Numeral(if n < 0 then -n else n)
            && (IsNegative(s) <==> n < 0)
  {
    var s := IntString(n);
    var d := Numeral(if n < 0 then -n else n);
    assert IsDigit(d[|d| - 1]);
    if n < 0 {
      assert s[1..] == d;
      assert s[|s| - 1] == d[|d| - 1];
    } else {
      assert s[0] == d[0];
    }
  }
}

=== FILE: form.dfy ===
/**
 * The prediction form component (src/components/Form.jsx): the record of
 * field values, the three status cells (loading, error, prediction), the
 * submit lifecycle around the request, and what the component renders
 * from that state. The network is an abstract Outcome.
 */
module Form {
  import opened Wrappers
  import opened Digits
  import opened JsNumbers
  import opened JsonValues

  /** The `name` attributes of the form's controls. */
  datatype Field = Age | Gender | Pclass | Sibsp | Parch | Embarked | Fare | Name

  /** A form field holds a JavaScript number (initial values) or the string a control reported. */
  datatype FieldValue = Num(x: real) | Text(s: string)

  /** The `formData` record. */
  datatype FormData = FormData(
    age: FieldValue, gender: FieldValue, pclass: FieldValue, sibsp: FieldValue,
    parch: FieldValue, embarked: FieldValue, fare: FieldValue, name: FieldValue)

  function InitialFormData(): FormData {
    FormData(Num(30.0), Text(""), Text(""), Num(0.0), Num(0.0), Text(""), Num(7.25), Text(""))
  }

  /** `formData[f]` */
  function Get(d: FormData, f: Field): FieldValue {
    match f
    case Age => d.age
    case Gender => d.gender
    case Pclass => d.pclass
    case Sibsp => d.sibsp
    case Parch => d.parch
    case Embarked => d.embarked
    case Fare => d.fare
    case Name => d.name
  }

  /** `{ ...d, [f]: v }`: the named field replaced, every other one kept. */
  function WithField(d: FormData, f: Field, v: FieldValue): (r: FormData)
    ensures Get(r, f) == v
    ensures forall g :: g != f ==> Get(r, g) == Get(d, g)
  {
    match f
    case Age => d.(age := v)
    case Gender => d.(gender := v)
    case Pclass => d.(pclass := v)
    case Sibsp => d.(sibsp := v)
    case Parch => d.(parch := v)
    case Embarked => d.(embarked := v)
    case Fare => d.(fare := v)
    case Name => d.(name := v)
  }

  /** A field value as a JavaScript value, so that JsonValues.Truthy gives its truthiness. */
  function AsJson(v: FieldValue): Json {
    match v
    case Num(x) => JNumber(x)
    case Text(s) => JString(s)
  }

  /**
   * `parseInt(v)`: a number is first written as a string, then read back up
   * to its point; a whole number is read through its numeral.
   */
  function IntOf(v: FieldValue): (r: Option<int>)
    ensures v.Text? ==> r == ParseInt(v.s)
    ensures v.Num? ==> r.Some?
    ensures v.Num? && v.x == v.x.Floor as real ==> r == ParseInt(IntString(v.x.Floor))
  {
    match v
    case Num(x) =>
      (if x == x.Floor as real then
         ParseIntNumeral(x.Floor, "");
         assert IntString(x.Floor) + "" == IntString(x.Floor);
         assert Truncate(x) == x.Floor;
         Some(Truncate(x))
       else Some(Truncate(x)))
    case Text(s) => ParseInt(s)
  }

  /** `parseFloat(v)`: a number reads back as itself, as its numeral would. */
  function FloatOf(v: FieldValue): (r: JsNumber)
    ensures v.Text? ==> r == ParseFloat(v.s)
    ensures v.Num? ==> r == Finite(v.x)
    ensures v.Num? && v.x == v.x.Floor as real ==> r == ParseFloat(IntString(v.x.Floor))
  {
    match v
    case Num(x) =>
      (if x == x.Floor as real then ParseFloatNumeral(x.Floor); Finite(x) else Finite(x))
    case Text(s) => ParseFloat(s)
  }

  /** The object handed to JSON.stringify as the request body. */
  datatype RequestBody = RequestBody(
    pclass: FieldValue, gender: FieldValue, age: FieldValue, sibsp: Option<int>,
    parch: Option<int>, fare: JsNumber, embarked: FieldValue, name: FieldValue)

  const UnknownName: string := "Unknown"

  /** The body built from the form record when a submit is accepted. */
  function BuildRequest(d: FormData): (b: RequestBody)
    ensures Truthy(AsJson(b.name))
    ensures b.name == if Truthy(AsJson(d.name)) then d.name else Text(UnknownName)
    ensures b.pclass == d.pclass && b.gender == d.gender
    ensures b.age == d.age && b.embarked == d.embarked
    ensures b.sibsp == IntOf(d.sibsp) && b.parch == IntOf(d.parch) && b.fare == FloatOf(d.fare)
  {
    RequestBody(
      d.pclass, d.gender, d.age, IntOf(d.sibsp), IntOf(d.parch), FloatOf(d.fare), d.embarked,
      if Truthy(AsJson(d.name)) then d.name else Text(UnknownName))
  }

  /** Submitting the untouched form sends the initial values, with the name "Unknown". */
  lemma InitialRequest()
    ensures BuildRequest(InitialFormData())
         == RequestBody(Text(""), Text(""), Num(30.0), Some(0), Some(0), Finite(7.25), Text(""), Text("Unknown"))
  {
  }

  /** A count typed as a decimal numeral (optionally followed by a fraction) reaches the body as that integer. */
  lemma TypedCountIsSent(d: FormData, f: Field, n: int, rest: string)
    requires f == Sibsp || f == Parch
    requires rest != [] ==> !IsDigit(rest[0])
    requires rest != [] && n == 0 ==> rest[0] != 'x' && rest[0] != 'X'
    ensures var b := BuildRequest(WithField(d, f, Text(IntString(n) + rest)));
            (if f == Sibsp then b.sibsp else b.parch) == Some(n)
  {
    ParseIntNumeral(n, rest);
  }

  /**
   * Nothing checks for NaN before sending: a cleared count or fare, or a count
   * typed as ".5", is sent as NaN (None).
   */
  lemma UnparsedFieldsSendNaN(d: FormData)
    requires d.sibsp == Text("") || d.sibsp == Text(".5")
    requires d.fare == Text("")
    ensures BuildRequest(d).sibsp.None? && BuildRequest(d).fare.NaN?
  {
    assert TrimStart(".5") == ".5";
  }

  /** A fare typed as "a.ds" reaches the body as the number a + ds / 10^|ds|. */
  lemma TypedFareIsSent(d: FormData, a: nat, ds: string)
    requires ds != [] && AllDigits(ds)
    ensures AllRadixDigits(ds, 10)
    ensures BuildRequest(WithField(d, Fare, Text(Numeral(a) + "." + ds))).fare
         == Finite(a as real + FractionValue(ds))
  {
    ParseFloatFixedPoint(a, ds);
  }

  /** How the request settled: an OK response with its decoded body, a non-OK status, or a thrown error. */
  datatype Outcome = Ok(data: Json) | NotOk | Transport(message: string)

  const FailureMessage: string := "Prediction failed"

  /** The component's state: the form record and the three status cells. */
  datatype UiState = UiState(formData: FormData, loading: bool, error: Option<string>, prediction: Json)

  function Initial(): UiState {
    UiState(InitialFormData(), false, None, JNull)
  }

  /** The status cells never show a result and an error at once, and are both clear while loading. */
  ghost predicate Consistent(s: UiState) {
    && (s.loading ==> s.error.None? && s.prediction == JNull)
    && (s.error.Some? ==> s.prediction == JNull)
  }

  /** handleChange: the named field takes the control's string, nothing else moves. */
  function Changed(s: UiState, f: Field, value: string): (r: UiState)
    ensures Get(r.formData, f) == Text(value)
    ensures forall g :: g != f ==> Get(r.formData, g) == Get(s.formData, g)
    ensures r.loading == s.loading && r.error == s.error && r.prediction == s.prediction
  {
    s.(formData := WithField(s.formData, f, Text(value)))
  }

  /** The start of handleSubmit, before the request is made. */
  function Started(s: UiState): (r: UiState)
    ensures r.loading && r.error.None? && r.prediction == JNull
    ensures r.formData == s.formData
  {
    s.(loading := true, error := None, prediction := JNull)
  }

  /** The message of the error caught by handleSubmit, if one was thrown. */
  function Thrown(o: Outcome): Option<string> {
    match o
    case Ok(_) => None
    case NotOk => Some(FailureMessage)
    case Transport(m) => Some(m)
  }

  /** The end of handleSubmit: the try block or the catch block, then finally. */
  function Finished(s: UiState, o: Outcome): (r: UiState)
    ensures !r.loading && r.formData == s.formData
    ensures o.Ok? ==> r.prediction == o.data && r.error == s.error
    ensures o.NotOk? ==> r.error == Some("Prediction failed") && r.prediction == s.prediction
    ensures o.Transport? ==> r.error == Some(o.message) && r.prediction == s.prediction
  {
    match Thrown(o)
    case None => s.(prediction := o.data, loading := false)
    case Some(m) => s.(error := Some(m), loading := false)
  }

  /**
   * One accepted submit, settled: loading ends false, exactly the outcome's
   * result is recorded and the other cell stays cleared, and the form
   * record is untouched.
   */
  lemma SubmitLifecycle(s: UiState, o: Outcome)
    requires !s.loading
    ensures var r := Finished(Started(s), o);
            && !r.loading && Consistent(r) && r.formData == s.formData
            && (o.Ok? ==> r.error.None? && r.prediction == o.data)
            && (o.NotOk? ==> r.error == Some(FailureMessage) && r.prediction == JNull)
            && (o.Transport? ==> r.error == Some(o.message) && r.prediction == JNull)
  {
  }

  // ---------------------------------------------------------------- rendering

  const SurviveLine: string := "\U{2705} Would Survive"
  const PerishLine: string := "\U{274C} Would Not Survive"

  /** What the component shows: the submit button, the error block and the result block's status line. */
  datatype View = View(buttonLabel: string, buttonDisabled: bool, errorText: Option<string>, status: Option<string>)

  /** `prediction.survived === 1` */
  predicate Survived(prediction: Json)
    ensures Survived(prediction) <==>
              && prediction.JObject? && "survived" in prediction.members
              && prediction.members["survived"] == JNumber(1.0)
  {
    Member(prediction, "survived") == Some(JNumber(1.0))
  }

  /** The JSX as a function of the state. */
  function Render(s: UiState): (v: View)
    ensures v.buttonDisabled <==> s.loading
    ensures v.buttonLabel == "Predicting..." <==> s.loading
    ensures !s.loading ==> v.buttonLabel == "Predict"
    ensures v.errorText.Some? <==> s.error.Some? && s.error.value != ""
    ensures v.errorText.Some? ==> v.errorText == s.error
    ensures v.status.Some? <==> Truthy(s.prediction)
    ensures v.status == Some(SurviveLine) <==> Truthy(s.prediction) && Survived(s.prediction)
    ensures v.status == Some(PerishLine) <==> Truthy(s.prediction) && !Survived(s.prediction)
  {
    View(
      if s.loading then "Predicting..." else "Predict",
      s.loading,
      if s.error.Some? && s.error.value != "" then s.error else None,
      if Truthy(s.prediction) then Some(if Survived(s.prediction) then SurviveLine else PerishLine) else None)
  }

  /** In a consistent state the error block and the result block are never shown together. */
  lemma AtMostOneBlock(s: UiState)
    requires Consistent(s)
    ensures Render(s).errorText.None? || Render(s).status.None?
  {
  }

  /** While a request is in flight the button is disabled, reads "Predicting..." and neither block shows. */
  lemma ViewWhileSubmitting(s: UiState)
    ensures Render(Started(s)) == View("Predicting...", true, None, None)
  {
  }

  /** After a submit settles the button is back, and the block shown is the outcome's. */
  lemma ViewAfterSubmit(s: UiState, o: Outcome)
    requires !s.loading
    ensures var v := Render(Finished(Started(s), o));
            && v.buttonLabel == "Predict" && !v.buttonDisabled
            && (o.Ok? ==> v.errorText.None? && (v.status.Some? <==> Truthy(o.data)))
            && (o.NotOk? ==> v.errorText == Some(FailureMessage) && v.status.None?)
            && (o.Transport? ==> v.status.None? && (v.errorText.Some? <==> o.message != ""))
  {
  }

  // ---------------------------------------------------------------- event traces

  /** What can happen to the component: an edit, a click on the submit button, or the request settling. */
  datatype Event = Edit(field: Field, value: string) | Submit | Settle(outcome: Outcome)

  /**
   * One event. A submit cannot be dispatched while the button is disabled,
   * and only an in-flight request can settle; None marks such an event.
   */
  function Step(s: UiState, e: Event): (r: Option<UiState>)
    ensures r.None? <==> (e.Submit? && s.loading) || (e.Settle? && !s.loading)
    ensures r.Some? && !e.Edit? ==> r.value.formData == s.formData && r.value.loading == e.Submit?
  {
    match e
    case Edit(f, value) => Some(Changed(s, f, value))
    case Submit => if s.loading then None else Some(Started(s))
    case Settle(o) => if s.loading then Some(Finished(s, o)) else None
  }

  /** The state after a sequence of events, or None if one of them could not occur. */
  function Run(s: UiState, es: seq<Event>): (r: Option<UiState>)
    ensures (forall k :: 0 <= k < |es| ==> es[k].Edit?) ==>
              && r.Some? && r.value.loading == s.loading
              && r.value.error == s.error && r.value.prediction == s.prediction
    decreases |es|
  {
    if es == [] then Some(s)
    else
      match Step(s, es[0])
      case None => None
      case Some(t) => Run(t, es[1..])
  }

  /** Submits minus settlements: the number of requests opened and not yet settled. */
  function InFlight(es: seq<Event>): int
    decreases |es|
  {
    if es == [] then 0
    else (match es[0] case Submit => 1 case Settle(_) => -1 case Edit(_, _) => 0) + InFlight(es[1..])
  }

  function Bit(b: bool): int {
    if b then 1 else 0
  }

  lemma {:induction false} StepConsistent(s: UiState, e: Event)
    requires Consistent(s)
    ensures Step(s, e).Some? ==> Consistent(Step(s, e).value)
  {
  }

  /** Every state reachable by events from a consistent state is consistent. */
  lemma {:induction false} RunConsistent(s: UiState, es: seq<Event>)
    requires Consistent(s)
    ensures Run(s, es).Some? ==> Consistent(Run(s, es).value)
    decreases |es|
  {
    if es != [] {
      StepConsistent(s, es[0]);
      if Step(s, es[0]).Some? {
        RunConsistent(Step(s, es[0]).value, es[1..]);
      }
    }
  }

  /** The loading cell counts the requests in flight. */
  lemma {:induction false} RunInFlight(s: UiState, es: seq<Event>)
    ensures Run(s, es).Some? ==> Bit(Run(s, es).value.loading) == Bit(s.loading) + InFlight(es)
    decreases |es|
  {
    if es != [] && Step(s, es[0]).Some? {
      RunInFlight(Step(s, es[0]).value, es[1..]);
    }
  }

  /**
   * From the mounted component, any possible sequence of events leaves at
   * most one request in flight, loading is true exactly when one is, and
   * the status cells stay consistent.
   */
  lemma SingleRequestInFlight(es: seq<Event>)
    ensures Run(Initial(), es).Some? ==>
              && (InFlight(es) == 0 || InFlight(es) == 1)
              && (Run(Initial(), es).value.loading <==> InFlight(es) == 1)
              && Consistent(Run(Initial(), es).value)
  {
    RunInFlight(Initial(), es);
    RunConsistent(Initial(), es);
  }

  // ---------------------------------------------------------------- the component

  /** The mounted component: its state cells are fields that the handlers update. */
  class PredictionForm {
    var formData: FormData
    var loading: bool
    var error: Option<string>
    var prediction: Json

    function State(): UiState
      reads this
    {
      UiState(formData, loading, error, prediction)
    }

    ghost predicate Valid()
      reads this
    {
      Consistent(State())
    }

    /** Mounting: the useState initial values. */
    constructor ()
      ensures Valid() && State() == Initial()
      ensures formData.age == Num(30.0) && formData.fare == Num(7.25) && formData.name == Text("")
      ensures !loading && error.None? && prediction == JNull
    {
      formData := InitialFormData();
      prediction := JNull;
      loading := false;
      error := None;
    }

    /** handleChange for the control named `name` reporting `value`. */
    method HandleChange(name: Field, value: string)
      requires Valid()
      modifies this
      ensures Valid() && State() == Changed(old(State()), name, value)
    {
      formData := WithField(formData, name, Text(value));
    }

    /**
     * handleSubmit up to the request. Only dispatched while the button is
     * enabled (`disabled={loading}`); returns the body that is sent.
     */
    method StartSubmit() returns (body: RequestBody)
      requires Valid() && !loading
      modifies this
      ensures Valid() && State() == Started(old(State()))
      ensures loading && error.None? && prediction == JNull
      ensures body == BuildRequest(formData)
    {
      loading := true;
      error := None;
      prediction := JNull;
      body := BuildRequest(formData);
    }

    /** handleSubmit after the await: record the outcome, then `finally` clears loading. */
    method FinishSubmit(outcome: Outcome)
      requires Valid() && loading
      modifies this
      ensures Valid() && State() == Finished(old(State()), outcome)
      ensures !loading && (error.None? || prediction == JNull)
    {
      var thrown := Thrown(outcome);
      if thrown.None? {
        prediction := outcome.data;
      } else {
        error := thrown;
      }
      loading := false;
    }

    /** The whole handleSubmit when nothing else happens while the request is in flight. */
    method HandleSubmit(outcome: Outcome) returns (body: RequestBody)
      requires Valid() && !loading
      modifies this
      ensures Valid() && State() == Finished(Started(old(State())), outcome)
      ensures body == BuildRequest(old(formData))
    {
      body := StartSubmit();
      FinishSubmit(outcome);
    }
  }
}

=== FILE: js_numbers.dfy ===
/**
 * The two JavaScript global parsers the form applies to its fields before
 * sending them: `parseInt(value)` (no radix argument) and
 * `parseFloat(value)`, as the ECMAScript language specification defines
 * them, over exact integers and reals.
 */
module JsNumbers {
  import opened Wrappers
  import opened Digits

  /** A JavaScript number as parseFloat can produce it. */
  datatype JsNumber = NaN | Infinity(negative: bool) | Finite(value: real)

  /** StrWhiteSpaceChar: WhiteSpace (TAB, VT, FF, ZWNBSP and the Zs space separators) or a LineTerminator. */
  predicate IsJsSpace(c: char) {
    || c == '\t' || c == '\n' || c == '\U{000B}' || c == '\U{000C}' || c == '\r'
    || c == ' ' || c == '\U{00A0}' || c == '\U{1680}'
    || ('\U{2000}' <= c <= '\U{200A}')
    || c == '\U{2028}' || c == '\U{2029}' || c == '\U{202F}' || c == '\U{205F}'
    || c == '\U{3000}' || c == '\U{FEFF}'
  }

  /** `s` without its leading white space, as both parsers begin by removing it. */
  function TrimStart(s: string): (t: string)
    ensures |t| <= |s| && t == s[|s| - |t|..]
    ensures forall k :: 0 <= k < |s| - |t| ==> IsJsSpace(s[k])
    ensures t != [] ==> !IsJsSpace(t[0])
  {
    if s != [] && IsJsSpace(s[0]) then TrimStart(s[1..]) else s
  }

  /**
   * parseInt(string) with no radix: an optional sign, then either "0x"/"0X"
   * and hexadecimal digits or decimal digits; the longest run of digits is
   * read and the rest ignored. None stands for NaN (no digit at all).
   */
  function ParseInt(s: string): (r: Option<int>)
    ensures var u := Unsigned(TrimStart(s)); r.Some? ==> u != [] && IsDigit(u[0])
    ensures var u := Unsigned(TrimStart(s));
            u != [] && IsDigit(u[0]) && !(|u| >= 2 && u[0] == '0' && (u[1] == 'x' || u[1] == 'X')) ==> r.Some?
    ensures r.Some? && r.value < 0 ==> IsNegative(TrimStart(s))
  {
    var t := TrimStart(s);
    match IntMagnitude(Unsigned(t))
    case None => None
    case Some(m) => Some(if IsNegative(t) then -(m as int) else m)
  }

  /** The unsigned part of parseInt: the value of the leading digits of `u`. */
  function IntMagnitude(u: string): (r: Option<nat>)
    ensures r.Some? ==> u != [] && IsDigit(u[0])
    ensures u != [] && IsDigit(u[0]) && !(|u| >= 2 && u[0] == '0' && (u[1] == 'x' || u[1] == 'X')) ==> r.Some?
  {
    var hex := |u| >= 2 && u[0] == '0' && (u[1] == 'x' || u[1] == 'X');
    var radix := if hex then 16 else 10;
    var digits := if hex then u[2..] else u;
    var n := PrefixLength(digits, radix);
    if n == 0 then None else Some(ValueIn(digits[..n], radix))
  }

  function Pow10(e: nat): (p: nat)
    ensures p >= 1
  {
    if e == 0 then 1 else 10 * Pow10(e - 1)
  }

  /** 10 raised to an integer power. */
  function Scale(e: int): (r: real)
    ensures r > 0.0
  {
    if e >= 0 then Pow10(e) as real else 1.0 / Pow10(-e) as real
  }

  /** An ExponentPart `[eE][+-]?digits` at the start of `s`, when there is one. */
  function ExponentPart(s: string): Option<int>
  {
    if s == [] || (s[0] != 'e' && s[0] != 'E') then None
    else
      var t := s[1..];
      var u := Unsigned(t);
      var n := PrefixLength(u, 10);
      if n == 0 then None
      else
        var magnitude: int := ValueIn(u[..n], 10);
        Some(if IsNegative(t) then -magnitude else magnitude)
  }

  /**
   * parseFloat(string): the longest prefix (after white space) that is a
   * StrDecimalLiteral: a sign, then "Infinity" or digits with an optional
   * fraction and exponent. NaN when there is no such prefix.
   */
  function ParseFloat(s: string): (r: JsNumber)
    ensures var u := Unsigned(TrimStart(s)); u != [] && IsDigit(u[0]) ==> r.Finite?
    ensures var u := Unsigned(TrimStart(s));
            r.NaN? ==> u == [] || (!IsDigit(u[0]) && !(|u| >= 2 && u[0] == '.' && IsDigit(u[1])))
    ensures r.Finite? && r.value < 0.0 ==> IsNegative(TrimStart(s))
  {
    var t := TrimStart(s);
    var u := Unsigned(t);
    if "Infinity" <= u then Infinity(IsNegative(t))
    else
      match DecimalMagnitude(u)
      case None => NaN
      case Some(m) => Finite(if IsNegative(t) then -m else m)
  }

  /** The value of the digits after a decimal point. */
  function FractionValue(ds: string): (r: real)
    requires AllRadixDigits(ds, 10)
    ensures 0.0 <= r
  {
    ValueIn(ds, 10) as real / Pow10(|ds|) as real
  }

  /** The value of the unsigned decimal literal `digits [. digits] [exponent]` at the start of `u`. */
  function DecimalMagnitude(u: string): (r: Option<real>)
    ensures u != [] && IsDigit(u[0]) ==> r.Some?
    ensures |u| >= 2 && u[0] == '.' && IsDigit(u[1]) ==> r.Some?
    ensures r.Some? ==> 0.0 <= r.value
  {
    var i := PrefixLength(u, 10);
    var hasDot := i < |u| && u[i] == '.';
    var f := if hasDot then PrefixLength(u[i + 1..], 10) else 0;
    if i == 0 && f == 0 then None
    else
      var fraction := if hasDot then u[i + 1..][..f] else "";
      var rest := if hasDot then u[i + 1 + f..] else u[i..];
      Some(Scaled(ValueIn(u[..i], 10), FractionValue(fraction), ExponentPart(rest).GetOr(0)))
  }

  /** The value of a mantissa `whole.fraction` times 10 to the power `e`. */
  function Scaled(whole: nat, fraction: real, e: int): (r: real)
    requires 0.0 <= fraction
    ensures 0.0 <= r
  {
    ProductNonNegative(whole as real + fraction, Scale(e));
    (whole as real + fraction) * Scale(e)
  }

  lemma ProductNonNegative(x: real, y: real)
    requires 0.0 <= x && 0.0 < y
    ensures 0.0 <= x * y
  {
  }

  /** The integer part of `x`, rounded toward zero. */
  function Truncate(x: real): (i: int)
    ensures x >= 0.0 ==> 0 <= i && i as real <= x < i as real + 1.0
    ensures x < 0.0 ==> i <= 0 && i as real - 1.0 < x <= i as real
  {
    if x >= 0.0 then x.Floor else -((-x).Floor)
  }

  lemma TrimStartNoSpace(s: string)
    requires s != [] && !IsJsSpace(s[0])
    ensures TrimStart(s) == s
  {
  }

  /** The digits of a numeral followed by a non-digit are read as the numeral's value. */
  lemma IntMagnitudeNumeral(m: nat, rest: string)
    requires rest != [] ==> !IsDigit(rest[0])
    requires rest != [] && m == 0 ==> rest[0] != 'x' && rest[0] != 'X'
    ensures IntMagnitude(Numeral(m) + rest) == Some(m)
  {
    var u := Numeral(m) + rest;
    NumeralValue(m);
    assert !(|u| >= 2 && u[0] == '0' && (u[1] == 'x' || u[1] == 'X'));
    assert u[..|Numeral(m)|] == Numeral(m);
    PrefixLengthIs(u, 10, |Numeral(m)|);
  }

  /**
   * parseInt reads back the decimal numeral of any integer, and stops at the
   * first character after it that is not a digit (so "2.5" gives 2). After
   * "0" an 'x' would switch to hexadecimal, so it is excluded there.
   */
  lemma ParseIntNumeral(n: int, rest: string)
    requires rest != [] ==> !IsDigit(rest[0])
    requires rest != [] && n == 0 ==> rest[0] != 'x' && rest[0] != 'X'
    ensures ParseInt(IntString(n) + rest) == Some(n)
  {
    var m: nat := if n < 0 then -n else n;
    var s := IntString(n) + rest;
    SignedNumeral(n, rest);
    assert !IsJsSpace(s[0]);
    TrimStartNoSpace(s);
    IntMagnitudeNumeral(m, rest);
  }

  /** A whole numeral is read by the decimal-literal grammar as its value. */
  lemma DecimalMagnitudeNumeral(m: nat)
    ensures DecimalMagnitude(Numeral(m)) == Some(m as real)
  {
    var u := Numeral(m);
    NumeralValue(m);
    assert u[..|u|] == u;
    PrefixLengthIs(u, 10, |u|);
    assert u[|u|..] == [];
  }

  /** parseFloat reads back the decimal numeral of any integer. */
  lemma ParseFloatNumeral(n: int)
    ensures ParseFloat(IntString(n)) == Finite(n as real)
  {
    var m: nat := if n < 0 then -n else n;
    var s := IntString(n);
    TrimStartNoSpace(s);
    var u := Unsigned(s);
    assert u == Numeral(m);
    assert u[0] != 'I';
    DecimalMagnitudeNumeral(m);
  }

  /** The fixed-point numeral "a.ds" is read by the decimal-literal grammar as a + ds / 10^|ds|. */
  lemma DecimalMagnitudeFixedPoint(a: nat, ds: string)
    requires ds != [] && AllDigits(ds)
    ensures AllRadixDigits(ds, 10)
    ensures DecimalMagnitude(Numeral(a) + "." + ds)
         == Some(a as real + FractionValue(ds))
  {
    var s := Numeral(a) + "." + ds;
    var k := |Numeral(a)|;
    var f := |ds|;
    FixedPointShape(a, ds);
    assert ds[..f] == ds;
    PrefixLengthIs(ds, 10, f);
    assert s[k + 1..][..f] == ds;
    assert s[k + 1 + f..] == [];
    assert ExponentPart([]) == None;
    assert Scale(0) == 1.0;
    var mantissa := ValueIn(s[..k], 10) as real + ValueIn(ds, 10) as real / Pow10(f) as real;
    assert mantissa == a as real + FractionValue(ds);
  }

  /** In "a.ds" the integer digits end at the point and the fraction digits follow it. */
  lemma FixedPointShape(a: nat, ds: string)
    requires AllDigits(ds)
    ensures var s := Numeral(a) + "." + ds;
            var k := |Numeral(a)|;
            && PrefixLength(s, 10) == k && k < |s| && s[k] == '.'
            && s[..k] == Numeral(a) && s[k + 1..] == ds
            && ValueIn(s[..k], 10) == a
  {
    var s := Numeral(a) + "." + ds;
    var k := |Numeral(a)|;
    NumeralValue(a);
    assert s[..k] == Numeral(a);
    assert s[k] == '.';
    PrefixLengthIs(s, 10, k);
    assert s[k + 1..] == ds;
  }

  /**
   * parseFloat reads a fixed-point numeral "a.ds" (what a number input with
   * step 0.01 holds) as a + ds / 10^|ds|.
   */
  lemma ParseFloatFixedPoint(a: nat, ds: string)
    requires ds != [] && AllDigits(ds)
    ensures AllRadixDigits(ds, 10)
    ensures ParseFloat(Numeral(a) + "." + ds)
         == Finite(a as real + FractionValue(ds))
  {
    var s := Numeral(a) + "." + ds;
    TrimStartNoSpace(s);
    assert Unsigned(s) == s;
    assert s[0] != 'I';
    DecimalMagnitudeFixedPoint(a, ds);
  }
}

=== FILE: json.dfy ===
/** Values decoded from a JSON body, and how JavaScript treats them. */
module JsonValues {
  import opened Wrappers

  /** What `response.json()` can resolve to. JNull is JavaScript's null. */
  datatype Json =
    | JNull
    | JBool(b: bool)
    | JNumber(n: real)
    | JString(s: string)
    | JArray(items: seq<Json>)
    | JObject(members: map<string, Json>)

  /** JavaScript truthiness (`v && ...`): null, false, 0 and "" are falsy. */
  predicate Truthy(v: Json)
    ensures Truthy(v) <==> v !in {JNull, JBool(false), JNumber(0.0), JString("")}
  {
    match v
    case JNull => false
    case JBool(b) => b
    case JNumber(n) => n != 0.0
    case JString(s) => s != ""
    case JArray(_) => true
    case JObject(_) => true
  }

  /** `v.key` on a non-null decoded value: only an object has named members; None is undefined. */
  function Member(v: Json, key: string): (r: Option<Json>)
    ensures r.Some? <==> v.JObject? && key in v.members
    ensures r.Some? ==> r.value == v.members[key]
  {
    if v.JObject? && key in v.members then Some(v.members[key]) else None
  }
}

=== FILE: preprocess.dfy ===
/**
 * preprocess_passenger (backend/app.py): the deterministic encoding of one
 * passenger's fields into the thirteen feature columns the classifier is
 * trained on. The one-row DataFrame is modelled by its single row.
 */
module Preprocess {
  import opened Wrappers
  import opened Digits
  import opened PyNumbers

  // ---------------------------------------------------------------- input

  /** A key of the dict: absent, or present with its value. */
  datatype Entry<T> = Absent | Present(value: T)

  /**
   * `dict.get(key, default)`: the default only when the key is absent.
   * Entry is kept apart from Wrappers.Option because a key may be present
   * and hold None (an `Entry<Option<T>>`), which `.get` does not replace.
   */
  function DictGet<T>(e: Entry<T>, default: T): T {
    match e
    case Absent => default
    case Present(v) => v
  }

  /** The request model PassengerInput as validated: name, fare and cabin may be None. */
  datatype PassengerInput = PassengerInput(
    pclass: string, name: Option<string>, gender: string, age: real, sibsp: int,
    parch: int, fare: Option<real>, cabin: Option<string>, embarked: string)

  /** The dict preprocess_passenger reads, with the value types the request model gives its keys. */
  datatype PassengerDict = PassengerDict(
    pclass: Entry<string>, name: Entry<Option<string>>, gender: Entry<string>, age: Entry<real>,
    sibsp: Entry<int>, parch: Entry<int>, fare: Entry<Option<real>>, cabin: Entry<Option<string>>,
    embarked: Entry<string>)

  /** `passenger.dict()`: every key present, so no `.get` default is ever taken. */
  function AsDict(p: PassengerInput): (d: PassengerDict)
    ensures forall dflt :: DictGet(d.pclass, dflt) == p.pclass
    ensures forall dflt :: DictGet(d.name, dflt) == p.name
    ensures forall dflt :: DictGet(d.gender, dflt) == p.gender
    ensures forall dflt :: DictGet(d.age, dflt) == p.age
    ensures forall dflt :: DictGet(d.sibsp, dflt) == p.sibsp
    ensures forall dflt :: DictGet(d.parch, dflt) == p.parch
    ensures forall dflt :: DictGet(d.fare, dflt) == p.fare
    ensures forall dflt :: DictGet(d.cabin, dflt) == p.cabin
    ensures forall dflt :: DictGet(d.embarked, dflt) == p.embarked
  {
    PassengerDict(
      Present(p.pclass), Present(p.name), Present(p.gender), Present(p.age), Present(p.sibsp),
      Present(p.parch), Present(p.fare), Present(p.cabin), Present(p.embarked))
  }

  /** The exceptions the conversions can raise. */
  datatype PyError = IntLiteral(text: string) | FloatOfNone

  const IntLiteralPrefix: string := "invalid literal for int() with base 10: "

  /** `%.200R` of the literal: its quoted form, cut after 200 characters. */
  function QuotedLiteral(s: string): (q: string)
    ensures |q| == if |s| + 2 <= 200 then |s| + 2 else 200
    ensures q <= "'" + s + "'"
  {
    var quoted := "'" + s + "'";
    if |quoted| <= 200 then quoted else quoted[..200]
  }

  /** `str(e)` for those exceptions. */
  function ErrorMessage(e: PyError): (m: string)
    ensures e.IntLiteral? ==> IntLiteralPrefix <= m && |m| <= |IntLiteralPrefix| + 200
    ensures e.IntLiteral? && |e.text| <= 198 ==> m == IntLiteralPrefix + "'" + e.text + "'"
    ensures e.FloatOfNone? ==> m == "float() argument must be a string or a real number, not 'NoneType'"
  {
    match e
    case IntLiteral(s) => IntLiteralPrefix + QuotedLiteral(s)
    case FloatOfNone => "float() argument must be a string or a real number, not 'NoneType'"
  }

  // ---------------------------------------------------------------- renaming with defaults

  /** `converted_data`: the model's field names, before the DataFrame is built. */
  datatype Converted = Converted(
    pclass: int, name: Option<string>, sex: string, age: real, sibSp: int, parch: int,
    fare: real, cabin: Option<string>, embarked: string)

  /** `int(passenger_data.get('pclass', 3))` */
  function PclassOf(e: Entry<string>): (r: Result<int, PyError>)
    ensures e.Absent? ==> r == Success(3)
    ensures e.Present? ==> (r.Success? <==> ParsePyInt(e.value).Some?)
    ensures e.Present? && r.Failure? ==> r.error == IntLiteral(e.value)
  {
    match e
    case Absent => Success(3)
    case Present(s) =>
      match ParsePyInt(s)
      case Some(i) => Success(i)
      case None => Failure(IntLiteral(s))
  }

  /** `float(passenger_data.get('fare', 7.25))` */
  function FareOf(e: Entry<Option<real>>): (r: Result<real, PyError>)
    ensures r.Failure? <==> e == Present(None)
    ensures r.Failure? ==> r.error == FloatOfNone
  {
    match e
    case Absent => Success(7.25)
    case Present(None) => Failure(FloatOfNone)
    case Present(Some(x)) => Success(x)
  }

  /** ASCII upper case of one character. */
  function UpperChar(c: char): char {
    if 'a' <= c <= 'z' then (c as int - 32) as char else c
  }

  /** `str.upper()` on ASCII text. */
  function UpperAscii(s: string): (r: string)
    ensures |r| == |s|
    ensures forall k :: 0 <= k < |s| ==> r[k] == UpperChar(s[k])
  {
    if s == [] then [] else [UpperChar(s[0])] + UpperAscii(s[1..])
  }

  /** The dict literal: fields read in order, so a bad pclass raises before a missing fare. */
  function Convert(d: PassengerDict): (r: Result<Converted, PyError>)
    ensures r.Success? <==> PclassOf(d.pclass).Success? && FareOf(d.fare).Success?
    ensures PclassOf(d.pclass).Failure? ==> r == Failure(PclassOf(d.pclass).error)
    ensures PclassOf(d.pclass).Success? && FareOf(d.fare).Failure? ==> r == Failure(FloatOfNone)
  {
    match PclassOf(d.pclass)
    case Failure(e) => Failure(e)
    case Success(pclass) =>
      match FareOf(d.fare)
      case Failure(e) => Failure(e)
      case Success(fare) =>
        Success(Converted(
          pclass, DictGet(d.name, Some("Unknown")), DictGet(d.gender, "male"), DictGet(d.age, 30.0),
          DictGet(d.sibsp, 0), DictGet(d.parch, 0), fare, DictGet(d.cabin, None),
          UpperAscii(DictGet(d.embarked, "S"))))
  }

  // ---------------------------------------------------------------- title

  predicate IsAsciiLetter(c: char) {
    ('A' <= c <= 'Z') || ('a' <= c <= 'z')
  }

  /** The length of the run of ASCII letters at the start of `s`. */
  function LetterRun(s: string): (n: nat)
    ensures n <= |s|
    ensures forall k :: 0 <= k < n ==> IsAsciiLetter(s[k])
    ensures n < |s| ==> !IsAsciiLetter(s[n])
  {
    if s == [] || !IsAsciiLetter(s[0]) then 0 else 1 + LetterRun(s[1..])
  }

  lemma {:induction false} LetterRunIs(s: string, m: nat)
    requires m <= |s|
    requires forall k :: 0 <= k < m ==> IsAsciiLetter(s[k])
    requires m < |s| ==> !IsAsciiLetter(s[m])
    ensures LetterRun(s) == m
  {
    if m > 0 {
      LetterRunIs(s[1..], m - 1);
    }
  }

  /** The pattern ` ([A-Za-z]+)\.` matches `s` at position `i` with `t` as its group. */
  ghost predicate MatchesAt(s: string, i: int, t: string) {
    && 0 <= i && i + |t| + 1 < |s|
    && s[i] == ' ' && t != []
    && (forall k :: 0 <= k < |t| ==> IsAsciiLetter(t[k]))
    && s[i + 1..i + 1 + |t|] == t
    && s[i + 1 + |t|] == '.'
  }

  /** The match a regular-expression search reports: the one starting leftmost. */
  ghost predicate LeftmostMatch(s: string, i: int, t: string) {
    MatchesAt(s, i, t) && forall j, u :: 0 <= j < i ==> !MatchesAt(s, j, u)
  }

  /** `str.extract(r' ([A-Za-z]+)\.')` on one string: the group of the first match, None (NaN) if none. */
  function TitleSearch(s: string): (r: Option<string>)
    ensures r.Some? ==> 0 < |r.value| <= |s| - 2
    ensures r.Some? ==> forall k :: 0 <= k < |r.value| ==> IsAsciiLetter(r.value[k])
    decreases |s|
  {
    if s == [] then None
    else
      var n := LetterRun(s[1..]);
      if s[0] == ' ' && n > 0 && 1 + n < |s| && s[1 + n] == '.' then Some(s[1..1 + n])
      else TitleSearch(s[1..])
  }

  /** At one position the group is determined: it runs up to the first non-letter, which must be the dot. */
  lemma MatchGroupUnique(s: string, i: int, t: string, u: string)
    requires MatchesAt(s, i, t) && MatchesAt(s, i, u)
    ensures t == u
  {
  }

  lemma NoMatchAtStart(s: string)
    requires s != []
    requires var n := LetterRun(s[1..]); !(s[0] == ' ' && n > 0 && 1 + n < |s| && s[1 + n] == '.')
    ensures forall t :: !MatchesAt(s, 0, t)
  {
    forall t | MatchesAt(s, 0, t)
      ensures false
    {
      forall k | 0 <= k < |t|
        ensures IsAsciiLetter(s[1..][k])
      {
        assert s[1..][k] == s[1..1 + |t|][k];
      }
      LetterRunIs(s[1..], |t|);
    }
  }

  lemma ShiftMatch(s: string, i: nat, t: string)
    requires s != []
    ensures MatchesAt(s, i + 1, t) <==> MatchesAt(s[1..], i, t)
  {
    if i + |t| + 2 < |s| {
      assert s[i + 2..i + 2 + |t|] == s[1..][i + 1..i + 1 + |t|];
    }
  }

  /** TitleSearch reports exactly the leftmost match of the pattern, and None only when nothing matches. */
  lemma {:induction false} TitleSearchFindsLeftmost(s: string)
    ensures TitleSearch(s).Some? ==> exists i :: LeftmostMatch(s, i, TitleSearch(s).value)
    ensures TitleSearch(s).None? ==> forall i, t :: !MatchesAt(s, i, t)
    decreases |s|
  {
    if s != [] {
      var n := LetterRun(s[1..]);
      if s[0] == ' ' && n > 0 && 1 + n < |s| && s[1 + n] == '.' {
        var t := s[1..1 + n];
        forall k | 0 <= k < |t|
          ensures IsAsciiLetter(t[k])
        {
          assert t[k] == s[1..][k];
        }
        assert MatchesAt(s, 0, t);
        assert LeftmostMatch(s, 0, t);
      } else {
        NoMatchAtStart(s);
        TitleSearchFindsLeftmost(s[1..]);
        forall i: nat, t
          ensures MatchesAt(s, i + 1, t) <==> MatchesAt(s[1..], i, t)
        {
          ShiftMatch(s, i, t);
        }
        if TitleSearch(s[1..]).Some? {
          var t := TitleSearch(s[1..]).value;
          var i :| LeftmostMatch(s[1..], i, t);
          assert MatchesAt(s, i + 1, t);
          forall j, u | 0 <= j < i + 1
            ensures !MatchesAt(s, j, u)
          {
            if j > 0 {
              assert !MatchesAt(s[1..], j - 1, u);
            }
          }
          assert LeftmostMatch(s, i + 1, t);
        } else {
          forall i, t
            ensures !MatchesAt(s, i, t)
          {
            if i > 0 {
              assert !MatchesAt(s[1..], i - 1, t);
            }
          }
        }
      }
    }
  }

  /** TitleSearch(s) is t exactly when the pattern's leftmost match in s has group t. */
  lemma TitleSearchSpec(s: string, t: string)
    ensures TitleSearch(s) == Some(t) <==> exists i :: LeftmostMatch(s, i, t)
  {
    TitleSearchFindsLeftmost(s);
    if i :| LeftmostMatch(s, i, t) {
      var t' := TitleSearch(s).value;
      var i' :| LeftmostMatch(s, i', t');
      assert !(i < i') && !(i' < i);
      MatchGroupUnique(s, i, t, t');
    }
  }

  /** A name without a space never yields a title ("Unknown", the form's default name). */
  lemma NoSpaceNoTitle(s: string)
    requires forall k :: 0 <= k < |s| ==> s[k] != ' '
    ensures TitleSearch(s) == None
  {
    TitleSearchFindsLeftmost(s);
  }

  /** A Kaggle-style name yields its honorific. */
  lemma TitleOfTypicalName()
    ensures TitleSearch("Braund, Mr. Owen Harris") == Some("Mr")
  {
    var s := "Braund, Mr. Owen Harris";
    assert s[7] == ' ' && s[8..10] == "Mr" && s[10] == '.';
    assert MatchesAt(s, 7, "Mr");
    forall j, u | 0 <= j < 7
      ensures !MatchesAt(s, j, u)
    {
      assert s[j] != ' ';
    }
    assert LeftmostMatch(s, 7, "Mr");
    TitleSearchSpec(s, "Mr");
  }

  /** `df['Sex'].map({'male': 'Mr', 'female': 'Miss'})` */
  function SexTitle(sex: string): Option<string> {
    if sex == "male" then Some("Mr") else if sex == "female" then Some("Miss") else None
  }

  /** The Title cell before normalisation: the name's honorific, else the sex-based one. */
  function ExtractTitle(name: Option<string>, sex: string): (t: Option<string>)
    ensures name.Some? && TitleSearch(name.value).Some? ==> t == TitleSearch(name.value)
    ensures (name.None? || TitleSearch(name.value).None?) ==> t == SexTitle(sex)
  {
    var found := if name.Some? then TitleSearch(name.value) else None;
    if found.Some? then found else SexTitle(sex)
  }

  const RareTitles: seq<string> :=
    ["Lady", "Countess", "Capt", "Col", "Don", "Dr", "Major", "Rev", "Sir", "Jonkheer", "Dona"]

  /** `Series.replace(olds, replacement)` on the one Title cell; NaN stays NaN. */
  function Replace(t: Option<string>, olds: seq<string>, replacement: string): Option<string> {
    if t.Some? && t.value in olds then Some(replacement) else t
  }

  /** The four replace calls in order. */
  function NormalizeTitle(t: Option<string>): (r: Option<string>)
    ensures t.None? ==> r.None?
    ensures t.Some? && t.value in RareTitles ==> r == Some("Rare")
    ensures t == Some("Mlle") || t == Some("Ms") ==> r == Some("Miss")
    ensures t == Some("Mme") ==> r == Some("Mrs")
    ensures t.Some? && t.value !in RareTitles && t.value !in ["Mlle", "Ms", "Mme"] ==> r == t
  {
    Replace(Replace(Replace(Replace(t, RareTitles, "Rare"), ["Mlle"], "Miss"), ["Ms"], "Miss"), ["Mme"], "Mrs")
  }

  const TitleMap: map<string, nat> := map["Mr" := 0, "Miss" := 1, "Mrs" := 2, "Master" := 3, "Rare" := 4]

  /** The titles with a code of their own, indexed by that code. */
  const CommonTitles: seq<string> := ["Mr", "Miss", "Mrs", "Master"]

  /** `map(title_map).fillna(4)` */
  function TitleCode(t: Option<string>): (c: nat)
    ensures c <= 4
    ensures c < 4 <==> t.Some? && t.value in CommonTitles
    ensures c < 4 ==> CommonTitles[c] == t.value
  {
    if t.Some? && t.value in TitleMap then TitleMap[t.value] else 4
  }

  /** The Title feature for every extracted title: Rare and anything unknown share code 4. */
  lemma TitleCodeCases(t: string)
    ensures var c := TitleCode(NormalizeTitle(Some(t)));
            && (t == "Mr" ==> c == 0)
            && (t == "Miss" || t == "Mlle" || t == "Ms" ==> c == 1)
            && (t == "Mrs" || t == "Mme" ==> c == 2)
            && (t == "Master" ==> c == 3)
            && (t !in ["Mr", "Miss", "Mlle", "Ms", "Mrs", "Mme", "Master"] ==> c == 4)
  {
    var r := NormalizeTitle(Some(t));
    if t in RareTitles {
      assert r == Some("Rare");
    } else if t !in ["Mlle", "Ms", "Mme"] {
      assert r == Some(t);
    }
  }

  /** Without an honorific in the name the title follows the sex: Mr (0), Miss (1), otherwise code 4. */
  lemma TitleWithoutHonorific(name: Option<string>, sex: string)
    requires name.None? || TitleSearch(name.value).None?
    ensures var c := TitleCode(NormalizeTitle(ExtractTitle(name, sex)));
            c == (if sex == "male" then 0 else if sex == "female" then 1 else 4)
  {
  }

  // ---------------------------------------------------------------- bins

  predicate Increasing(edges: seq<real>) {
    forall i, j :: 0 <= i < j < |edges| ==> edges[i] < edges[j]
  }

  /** `pd.cut(x, bins=edges, labels=[0, 1, ...])` on one value: right-closed bins, None (NaN) outside them. */
  function Cut(x: real, edges: seq<real>): (b: Option<nat>)
    requires Increasing(edges)
    ensures b.Some? <==> |edges| >= 2 && edges[0] < x <= edges[|edges| - 1]
    ensures b.Some? ==> b.value + 1 < |edges| && edges[b.value] < x <= edges[b.value + 1]
    decreases |edges|
  {
    if |edges| < 2 || x <= edges[0] then None
    else if x <= edges[1] then Some(0)
    else
      match Cut(x, edges[1..])
      case None => None
      case Some(k) => Some(k + 1)
  }

  /** A value lies in exactly one bin, so the label Cut gives is that bin's. */
  lemma CutIsTheBin(x: real, edges: seq<real>, k: nat)
    requires Increasing(edges)
    requires k + 1 < |edges| && edges[k] < x <= edges[k + 1]
    ensures Cut(x, edges) == Some(k)
  {
    var b := Cut(x, edges);
    assert edges[0] <= edges[k] && edges[k + 1] <= edges[|edges| - 1];
  }

  /** Larger values never fall in lower bins. */
  lemma CutMonotone(x: real, y: real, edges: seq<real>)
    requires Increasing(edges) && x <= y
    requires Cut(x, edges).Some? && Cut(y, edges).Some?
    ensures Cut(x, edges).value <= Cut(y, edges).value
  {
  }

  const AgeEdges: seq<real> := [0.0, 12.0, 18.0, 35.0, 60.0, 100.0]
  const FareEdges: seq<real> := [0.0, 7.91, 14.454, 31.0, 513.0]

  lemma EdgesIncrease()
    ensures Increasing(AgeEdges) && Increasing(FareEdges)
  {
  }

  function AgeBand(age: real): (b: Option<nat>)
    ensures b.Some? <==> 0.0 < age <= 100.0
    ensures b.Some? ==> b.value <= 4 && AgeEdges[b.value] < age <= AgeEdges[b.value + 1]
  {
    EdgesIncrease();
    Cut(age, AgeEdges)
  }

  /** The fixed-bin fallback for the fare band. */
  function FareBand(fare: real): (b: Option<nat>)
    ensures b.Some? <==> 0.0 < fare <= 513.0
    ensures b.Some? ==> b.value <= 3 && FareEdges[b.value] < fare <= FareEdges[b.value + 1]
  {
    EdgesIncrease();
    Cut(fare, FareEdges)
  }

  /** The age bands (0,12], (12,18], (18,35], (35,60], (60,100] are labelled 0 to 4. */
  lemma AgeBands(age: real)
    ensures 0.0 < age <= 12.0 ==> AgeBand(age) == Some(0)
    ensures 12.0 < age <= 18.0 ==> AgeBand(age) == Some(1)
    ensures 18.0 < age <= 35.0 ==> AgeBand(age) == Some(2)
    ensures 35.0 < age <= 60.0 ==> AgeBand(age) == Some(3)
    ensures 60.0 < age <= 100.0 ==> AgeBand(age) == Some(4)
  {
    EdgesIncrease();
    if 0.0 < age <= 100.0 {
      var k := AgeBand(age).value;
      CutIsTheBin(age, AgeEdges, k);
    }
  }

  /** The fare bands (0,7.91], (7.91,14.454], (14.454,31], (31,513] are labelled 0 to 3. */
  lemma FareBands(fare: real)
    ensures 0.0 < fare <= 7.91 ==> FareBand(fare) == Some(0)
    ensures 7.91 < fare <= 14.454 ==> FareBand(fare) == Some(1)
    ensures 14.454 < fare <= 31.0 ==> FareBand(fare) == Some(2)
    ensures 31.0 < fare <= 513.0 ==> FareBand(fare) == Some(3)
  {
    EdgesIncrease();
  }

  // ---------------------------------------------------------------- categorical codes

  /** `map({'male': 1, 'female': 0})`; any other value is NaN. */
  function SexCode(sex: string): (c: Option<nat>)
    ensures c.Some? <==> sex == "male" || sex == "female"
    ensures c.Some? ==> c.value == if sex == "male" then 1 else 0
  {
    var sexMap := map["male" := 1, "female" := 0];
    if sex in sexMap then Some(sexMap[sex]) else None
  }

  const EmbarkedMap: map<string, nat> := map["S" := 0, "C" := 1, "Q" := 2]

  /** `map({'S': 0, 'C': 1, 'Q': 2}).fillna(0)` on the upper-cased port. */
  function EmbarkedCode(port: string): (c: nat)
    ensures c <= 2
    ensures c == 1 <==> port == "C"
    ensures c == 2 <==> port == "Q"
  {
    if port in EmbarkedMap then EmbarkedMap[port] else 0
  }

  /** The port code ignores case: only "c"/"C" give 1 and only "q"/"Q" give 2. */
  lemma EmbarkedIgnoresCase(e: string)
    ensures EmbarkedCode(UpperAscii(e)) == 1 <==> e == "C" || e == "c"
    ensures EmbarkedCode(UpperAscii(e)) == 2 <==> e == "Q" || e == "q"
  {
    var u := UpperAscii(e);
    if |e| == 1 {
      assert u == [UpperChar(e[0])];
    } else {
      assert u != "C" && u != "Q";
    }
  }

  const DeckLetters: string := "ABCDEFGT"

  const DeckMap: map<string, nat> :=
    map["A" := 0, "B" := 1, "C" := 2, "D" := 3, "E" := 4, "F" := 5, "G" := 6, "T" := 7, "Unknown" := 8]

  /** The deck cell: the cabin's first character, or 'Unknown' for a missing or empty cabin. */
  function Deck(cabin: Option<string>): (deck: string)
    ensures deck == "Unknown" <==> cabin.None? || cabin.value == []
    ensures deck != "Unknown" ==> deck == cabin.value[..1]
  {
    if cabin.Some? && cabin.value != [] then [cabin.value[0]] else "Unknown"
  }

  /** `map(deck_map).fillna(8)` on the deck cell. */
  function DeckCode(cabin: Option<string>): (c: nat)
    ensures c <= 8
    ensures c < 8 <==> cabin.Some? && cabin.value != [] && cabin.value[0] in DeckLetters
    ensures c < 8 ==> DeckLetters[c] == cabin.value[0]
  {
    var deck := Deck(cabin);
    if deck in DeckMap then DeckMap[deck] else 8
  }

  // ---------------------------------------------------------------- the feature row

  /** The thirteen features; Sex, AgeBand and FareBand may be NaN (None). */
  datatype FeatureRow = FeatureRow(
    pclass: int, sex: Option<nat>, age: real, sibSp: int, parch: int, fare: real,
    embarked: nat, familySize: int, isAlone: nat, title: nat, ageBand: Option<nat>,
    fareBand: Option<nat>, deck: nat)

  /** What every encoded row satisfies. */
  ghost predicate WellFormedRow(row: FeatureRow) {
    && row.familySize == row.sibSp + row.parch + 1
    && row.isAlone <= 1 && (row.isAlone == 1 <==> row.familySize == 1)
    && (row.sex.Some? ==> row.sex.value <= 1)
    && row.embarked <= 2 && row.title <= 4 && row.deck <= 8
    && (row.ageBand.Some? <==> 0.0 < row.age <= 100.0)
    && (row.ageBand.Some? ==> row.ageBand.value <= 4 && AgeEdges[row.ageBand.value] < row.age <= AgeEdges[row.ageBand.value + 1])
    && (row.fareBand.Some? <==> 0.0 < row.fare <= 513.0)
    && (row.fareBand.Some? ==> row.fareBand.value <= 3 && FareEdges[row.fareBand.value] < row.fare <= FareEdges[row.fareBand.value + 1])
  }

  /** The DataFrame steps after the dict: title, family, bands, deck and the categorical codes. */
  function Encode(c: Converted): (row: FeatureRow)
    ensures WellFormedRow(row)
    ensures row.pclass == c.pclass && row.age == c.age && row.fare == c.fare
    ensures row.sibSp == c.sibSp && row.parch == c.parch
  {
    var familySize := c.sibSp + c.parch + 1;
    FeatureRow(
      c.pclass, SexCode(c.sex), c.age, c.sibSp, c.parch, c.fare, EmbarkedCode(c.embarked),
      familySize, if familySize == 1 then 1 else 0,
      TitleCode(NormalizeTitle(ExtractTitle(c.name, c.sex))),
      AgeBand(c.age), FareBand(c.fare), DeckCode(c.cabin))
  }

  /** preprocess_passenger: the feature row, or the exception a conversion raised. */
  function PreprocessPassenger(d: PassengerDict): (r: Result<FeatureRow, PyError>)
    ensures r.Success? <==> PclassOf(d.pclass).Success? && FareOf(d.fare).Success?
    ensures r.Success? ==> WellFormedRow(r.value)
  {
    match Convert(d)
    case Failure(e) => Failure(e)
    case Success(c) => Success(Encode(c))
  }

  /** With non-negative counts, a passenger is alone exactly when both counts are zero. */
  lemma AloneIffNoFamily(row: FeatureRow)
    requires WellFormedRow(row) && row.sibSp >= 0 && row.parch >= 0
    ensures row.isAlone == 1 <==> row.sibSp == 0 && row.parch == 0
  {
  }

  /** The request model's dict holds every key, so no default is used: the row is built from the submitted values. */
  lemma SubmittedValuesAreUsed(p: PassengerInput)
    ensures ParsePyInt(p.pclass).None? ==> PreprocessPassenger(AsDict(p)) == Failure(IntLiteral(p.pclass))
    ensures ParsePyInt(p.pclass).Some? && p.fare.None? ==> PreprocessPassenger(AsDict(p)) == Failure(FloatOfNone)
    ensures PreprocessPassenger(AsDict(p)).Success? ==>
              var row := PreprocessPassenger(AsDict(p)).value;
              && ParsePyInt(p.pclass).Some? && p.fare.Some?
              && row.pclass == ParsePyInt(p.pclass).value
              && row.sex == SexCode(p.gender) && row.age == p.age
              && row.sibSp == p.sibsp && row.parch == p.parch && row.fare == p.fare.value
              && row.embarked == EmbarkedCode(UpperAscii(p.embarked))
              && row.title == TitleCode(NormalizeTitle(ExtractTitle(p.name, p.gender)))
              && row.deck == DeckCode(p.cabin)
  {
  }

  /** The message int('') raises with. */
  lemma EmptyLiteralMessage()
    ensures ErrorMessage(IntLiteral("")) == "invalid literal for int() with base 10: ''"
  {
    assert QuotedLiteral("") == "''";
  }

  /** The unselected class "" that the form starts with is rejected by int(). */
  lemma UnselectedClassRaises(p: PassengerInput)
    requires p.pclass == ""
    ensures PreprocessPassenger(AsDict(p)) == Failure(IntLiteral(""))
  {
    ParsePyIntEmpty();
  }

  /** A class sent as the numeral of n becomes Pclass n. */
  lemma NumeralClassIsRead(p: PassengerInput, n: int)
    requires p.pclass == IntString(n) && p.fare.Some?
    ensures PreprocessPassenger(AsDict(p)).Success?
    ensures PreprocessPassenger(AsDict(p)).value.pclass == n
  {
    ParsePyIntNumeral(n);
  }

  /**
   * A dict without any of the keys takes every default: class 3, male, 30,
   * no family, fare 7.25 in band 0, port S, title Mr from the name
   * "Unknown", age band 2, unknown deck.
   */
  lemma AllDefaults(d: PassengerDict)
    requires d.pclass.Absent? && d.name.Absent? && d.gender.Absent? && d.age.Absent? && d.sibsp.Absent?
    requires d.parch.Absent? && d.fare.Absent? && d.cabin.Absent? && d.embarked.Absent?
    ensures PreprocessPassenger(d)
         == Success(FeatureRow(3, Some(1), 30.0, 0, 0, 7.25, 0, 1, 1, 0, Some(2), Some(0), 8))
  {
    assert UpperAscii("S") == "S";
    var c := Convert(d).value;
    assert c == Converted(3, Some("Unknown"), "male", 30.0, 0, 0, 7.25, None, "S");
    DefaultsEncoded(c);
  }

  lemma DefaultsEncoded(c: Converted)
    requires c.pclass == 3 && c.name == Some("Unknown") && c.sex == "male" && c.age == 30.0
    requires c.sibSp == 0 && c.parch == 0 && c.fare == 7.25 && c.cabin.None? && c.embarked == "S"
    ensures Encode(c).sex == Some(1) && Encode(c).embarked == 0 && Encode(c).deck == 8
    ensures Encode(c).familySize == 1 && Encode(c).isAlone == 1 && Encode(c).title == 0
    ensures Encode(c).ageBand == Some(2) && Encode(c).fareBand == Some(0)
  {
    DefaultTitle();
    AgeBands(c.age);
    FareBands(c.fare);
    DefaultCodes();
  }

  lemma DefaultCodes()
    ensures EmbarkedCode("S") == 0 && DeckCode(None) == 8
  {
  }

  /** The default name has no honorific, so the default sex gives the title Mr, code 0. */
  lemma DefaultTitle()
    ensures TitleCode(NormalizeTitle(ExtractTitle(Some("Unknown"), "male"))) == 0
  {
    NoSpaceNoTitle("Unknown");
    assert ExtractTitle(Some("Unknown"), "male") == Some("Mr");
    assert "Mr" !in RareTitles;
  }

  // ---------------------------------------------------------------- column order

  /** The column order `df[features]` selects. */
  const FeatureNames: seq<string> :=
    ["Pclass", "Sex", "Age", "SibSp", "Parch", "Fare", "Embarked", "FamilySize", "IsAlone",
     "Title", "AgeBand", "FareBand", "Deck"]

  /** One cell of the row as the classifier sees it. */
  datatype Cell = IntCell(i: int) | RealCell(r: real) | NaN

  function OptCell(b: Option<nat>): Cell {
    if b.Some? then IntCell(b.value) else NaN
  }

  /** `df[name]`: the column of that name. */
  function Column(row: FeatureRow, name: string): Cell
    requires name in FeatureNames
  {
    match name
    case "Pclass" => IntCell(row.pclass)
    case "Sex" => OptCell(row.sex)
    case "Age" => RealCell(row.age)
    case "SibSp" => IntCell(row.sibSp)
    case "Parch" => IntCell(row.parch)
    case "Fare" => RealCell(row.fare)
    case "Embarked" => IntCell(row.embarked)
    case "FamilySize" => IntCell(row.familySize)
    case "IsAlone" => IntCell(row.isAlone)
    case "Title" => IntCell(row.title)
    case "AgeBand" => OptCell(row.ageBand)
    case "FareBand" => OptCell(row.fareBand)
    case _ => IntCell(row.deck)
  }

  /** The row handed to the classifier: thirteen cells, each the named feature in the trained order. */
  function Columns(row: FeatureRow): (cells: seq<Cell>)
    ensures |cells| == |FeatureNames| == 13
    ensures forall k :: 0 <= k < 13 ==> cells[k] == Column(row, FeatureNames[k])
  {
    [IntCell(row.pclass), OptCell(row.sex), RealCell(row.age), IntCell(row.sibSp),
     IntCell(row.parch), RealCell(row.fare), IntCell(row.embarked), IntCell(row.familySize),
     IntCell(row.isAlone), IntCell(row.title), OptCell(row.ageBand), OptCell(row.fareBand),
     IntCell(row.deck)]
  }
}

=== FILE: py_numbers.dfy ===
/**
 * Python's `int(s)` for a str `s` (base 10), the conversion the backend
 * applies to the passenger class it receives as text.
 */
module PyNumbers {
  import opened Wrappers
  import opened Digits

  /**
   * The characters `int()` skips around a numeral: the six ASCII white-space
   * characters and the non-ASCII ones Unicode counts as white space. The
   * ASCII separators U+001C-U+001F, white space to `str.isspace()`, are not
   * skipped by `int()`.
   */
  predicate IsPySpace(c: char) {
    || ('\t' <= c <= '\r')
    || c == ' ' || c == '\U{0085}' || c == '\U{00A0}' || c == '\U{1680}'
    || ('\U{2000}' <= c <= '\U{200A}')
    || c == '\U{2028}' || c == '\U{2029}' || c == '\U{202F}' || c == '\U{205F}' || c == '\U{3000}'
  }

  function StripStart(s: string): (t: string)
    ensures |t| <= |s| && t == s[|s| - |t|..]
    ensures forall k :: 0 <= k < |s| - |t| ==> IsPySpace(s[k])
    ensures t != [] ==> !IsPySpace(t[0])
  {
    if s != [] && IsPySpace(s[0]) then StripStart(s[1..]) else s
  }

  function StripEnd(s: string): (t: string)
    ensures |t| <= |s| && t == s[..|t|]
    ensures forall k :: |t| <= k < |s| ==> IsPySpace(s[k])
    ensures t != [] ==> !IsPySpace(t[|t| - 1])
  {
    if s != [] && IsPySpace(s[|s| - 1]) then StripEnd(s[..|s| - 1]) else s
  }

  /** `s.strip()`: white space removed from both ends. */
  function Strip(s: string): string {
    StripEnd(StripStart(s))
  }

  /** Digits in which single underscores may separate two digits ("1_000"). */
  predicate GroupedDigits(u: string) {
    && u != []
    && IsDigit(u[0]) && IsDigit(u[|u| - 1])
    && forall k :: 0 <= k < |u| ==> IsDigit(u[k]) || (u[k] == '_' && k + 1 < |u| && IsDigit(u[k + 1]))
  }

  /** The digits of `u` with the separating underscores taken out. */
  function DropUnderscores(u: string): (d: string)
    requires forall k :: 0 <= k < |u| ==> IsDigit(u[k]) || u[k] == '_'
    ensures AllDigits(d) && |d| <= |u|
  {
    if u == [] then []
    else (if u[0] == '_' then [] else [u[0]]) + DropUnderscores(u[1..])
  }

  /**
   * `int(s)`: after stripping white space, an optional sign and grouped
   * decimal digits, and nothing else. None stands for the ValueError Python
   * raises.
   */
  function ParsePyInt(s: string): (r: Option<int>)
    ensures r.Some? <==> GroupedDigits(Unsigned(Strip(s)))
    ensures r.Some? && r.value < 0 ==> IsNegative(Strip(s))
  {
    var t := Strip(s);
    var u := Unsigned(t);
    if !GroupedDigits(u) then None
    else
      GroupedDigitsChars(u);
      var magnitude: int := ValueIn(DropUnderscores(u), 10);
      Some(if IsNegative(t) then -magnitude else magnitude)
  }

  lemma GroupedDigitsChars(u: string)
    requires GroupedDigits(u)
    ensures forall k :: 0 <= k < |u| ==> IsDigit(u[k]) || u[k] == '_'
  {
    forall k | 0 <= k < |u|
      ensures IsDigit(u[k]) || u[k] == '_'
    {
      assert IsDigit(u[k]) || (u[k] == '_' && k + 1 < |u| && IsDigit(u[k + 1]));
    }
  }

  lemma {:induction false} DropUnderscoresOfDigits(s: string)
    requires AllDigits(s)
    ensures DropUnderscores(s) == s
  {
    if s != [] {
      DropUnderscoresOfDigits(s[1..]);
    }
  }

  lemma StripStartNoSpace(s: string)
    requires s != [] && !IsPySpace(s[0])
    ensures StripStart(s) == s
  {
  }

  lemma StripEndNoSpace(s: string)
    requires s != [] && !IsPySpace(s[|s| - 1])
    ensures StripEnd(s) == s
  {
  }

  /** The numeral of an integer has no white space to strip. */
  lemma StripIntString(n: int)
    ensures Strip(IntString(n)) == IntString(n)
  {
    var s := IntString(n);
    SignedNumeralAlone(n);
    assert !IsPySpace(s[0]);
    StripStartNoSpace(s);
    assert !IsPySpace(s[|s| - 1]);
    StripEndNoSpace(s);
  }

  lemma NumeralGrouped(m: nat)
    ensures GroupedDigits(Numeral(m))
  {
    var u := Numeral(m);
    assert forall k :: 0 <= k < |u| ==> IsDigit(u[k]);
  }

  /** `int(str(n)) == n` for every integer n. */
  lemma ParsePyIntNumeral(n: int)
    ensures ParsePyInt(IntString(n)) == Some(n)
  {
    var m: nat := if n < 0 then -n else n;
    var t := IntString(n);
    StripIntString(n);
    SignedNumeralAlone(n);
    NumeralGrouped(m);
    NumeralValue(m);
    ParsePyIntUnpadded(t);
  }

  /** A stripped, signed run of plain digits is read as its value. */
  lemma ParsePyIntUnpadded(t: string)
    requires Strip(t) == t && GroupedDigits(Unsigned(t)) && AllDigits(Unsigned(t))
    requires AllRadixDigits(Unsigned(t), 10)
    ensures var v: int := ValueIn(Unsigned(t), 10);
            ParsePyInt(t) == Some(if IsNegative(t) then -v else v)
  {
    DropUnderscoresOfDigits(Unsigned(t));
  }

  /** White space around the text does not change what int() reads. */
  lemma ParsePyIntIgnoresPadding(pad: string, s: string, pad': string)
    requires forall k :: 0 <= k < |pad| ==> IsPySpace(pad[k])
    requires forall k :: 0 <= k < |pad'| ==> IsPySpace(pad'[k])
    requires s != [] && !IsPySpace(s[0]) && !IsPySpace(s[|s| - 1])
    ensures ParsePyInt(pad + s + pad') == ParsePyInt(s)
  {
    StripPadded(pad, s, pad');
    SameStripSameInt(pad + s + pad', s);
  }

  lemma SameStripSameInt(a: string, b: string)
    requires Strip(a) == Strip(b)
    ensures ParsePyInt(a) == ParsePyInt(b)
  {
  }

  lemma StripPadded(pad: string, s: string, pad': string)
    requires forall k :: 0 <= k < |pad| ==> IsPySpace(pad[k])
    requires forall k :: 0 <= k < |pad'| ==> IsPySpace(pad'[k])
    requires s != [] && !IsPySpace(s[0]) && !IsPySpace(s[|s| - 1])
    ensures Strip(pad + s + pad') == s == Strip(s)
  {
    assert pad + s + pad' == pad + (s + pad');
    StripStartPadded(pad, s + pad');
    StripEndPadded(s, pad');
    assert StripStart(s) == s;
    assert StripEnd(s) == s;
  }

  lemma {:induction false} StripStartPadded(pad: string, s: string)
    requires forall k :: 0 <= k < |pad| ==> IsPySpace(pad[k])
    requires s != [] && !IsPySpace(s[0])
    ensures StripStart(pad + s) == s
  {
    if pad != [] {
      assert (pad + s)[1..] == pad[1..] + s;
      StripStartPadded(pad[1..], s);
    }
  }

  lemma {:induction false} StripEndPadded(s: string, pad: string)
    requires forall k :: 0 <= k < |pad| ==> IsPySpace(pad[k])
    requires s != [] && !IsPySpace(s[|s| - 1])
    ensures StripEnd(s + pad) == s
  {
    if pad != [] {
      assert (s + pad)[..|s + pad| - 1] == s + pad[..|pad| - 1];
      StripEndPadded(s, pad[..|pad| - 1]);
    } else {
      assert s + pad == s;
    }
  }

  /** The empty string, the form's unselected class, is not an integer to Python. */
  lemma ParsePyIntEmpty()
    ensures ParsePyInt("") == None
  {
  }
}

=== FILE: wrappers.dfy ===
/** Optional values and computations that may fail. */
module Wrappers {

  /** A value that may be absent (JavaScript's NaN or null, Python's None). */
  datatype Option<+T> = None | Some(value: T) {
    function GetOr(default: T): T {
      match this
      case Some(v) => v
      case None => default
    }
  }

  /** The outcome of an operation that either succeeds or raises. */
  datatype Result<+T, +E> = Success(value: T) | Failure(error: E)
}
